=== FILE: README.md ===
# shopBac cart core, modelled in Dafny

This project models the deterministic rules at the core of the shopBac shop
server and its web client:

- the **shopping cart**:
  - which `cart_token` cookie is accepted;
  - the active-cart rule (a closed cart is never reused);
  - adding an item, either merging into the line of the same product and size or appending a new line;
  - setting a quantity and removing an item;
  - choosing the lowest shipping rate, with a fixed fallback rate;
  - building the shipping order and its total weight;
  - the checkout transition from an open cart to a paid, closed one;
- the **email text helpers**: `substringOnWords`, `getShippingName` and `getPurchaseDescription`;
- the **server helpers**: `makeArray`, `twoPointDecimal`, `stripTags` and `stripQuotes`, plus the
  query normalisation of `queryHelper` and the paging config of `fetchPage`;
- the product's `display_price`;
- the `ui` store of the web client: its initial state, its mutations and the `inCheckoutFlow` getter.

Each component is one module:

| module | file | models |
|---|---|---|
| `Wrappers` | wrappers.dfy | `Option` and `Result` |
| `Text` | text.dfy | the JavaScript string built-ins the code relies on: `split`, `join`, `trim`, `parseInt(…, 10)`, integer rendering |
| `HelpersService` | helpers_service.dfy | `makeArray`, `twoPointDecimal`, `stripTags`, `stripQuotes` |
| `QueryHelper` | query_helper.dfy | `queryHelper` after query-string parsing, and the `fetchPage` config |
| `ShoppingCartEmail` | email_service.dfy | `substringOnWords`, `getShippingName`, `getPurchaseDescription` |
| `ProductModel` | product.dfy | the product record and `display_price` |
| `UiStore` | ui_store.dfy | the `ui` store |
| `CartToken` | cart_token.dfy | `getValidCartTokenFromRequest`, `getOrCreateCartToken` |
| `ShippingRates` | shipping_rates.dfy | shipping rates and `getLowestShippingRate` |
| `CartStore` | cart_store.dfy | the cart store, `getActiveCart`, `pre_cart`, and the add, remove and quantity handlers |
| `Shipment` | shipment.dfy | the order built by `createShippoOrderFromShoppingCart` |
| `Checkout` | checkout.dfy | `cartCheckoutHandler` |

Conventions of the model:

- Money is integer cents and weight is integer hundredths of an ounce.
- The database is an immutable `Store`:
  - a map from cart token to cart;
  - each cart holds a sequence of line items;
  - the store also holds the list of recorded payments.
- Every handler is a function from a store to the next store and a reply.
- The following are parameters of the handlers rather than effects:
  - the freshly minted UUID;
  - the item and payment ids the database assigns;
  - the payment gateway, as a function from charge request to "charged" or "threw";
  - the gateway's rate quotes;
  - the clock;
  - whether the two database writes of checkout succeed.
- Cookie and query-string parsing are taken as done: a request carries the parsed `cart_token`, and a
  query is a map of parsed values.
- The route validation bounds are preconditions: a quantity in the add or quantity payload is an
  integer of at least 1, and the checkout payload carries a non-empty `nonce`
  (server/plugins/shopping-cart/index.js).
- The freshly minted UUID a handler receives names no existing cart (`drawn !in s.carts`). The
  lemmas about `pre_cart` and the handlers assume this, as a random version 4 UUID makes a clash
  negligible.
- The `findByVariant` and `findById` methods of the cart item model are not part of the source shown.
  They are modelled as "the first line with this product and size" and "the line with this id,
  in whichever cart holds it".

Where the code and its design description disagree, the model follows the code:

- Removing an item id that no cart holds is a silent no-op, not an error.
- A charge that throws records no payment; nothing is saved.
- `getValidCartTokenFromRequest` accepts any non-empty token. Its `token || uuidValidate(token, 4)`
  makes the UUID test redundant; only `getOrCreateCartToken` checks for a version 4 UUID.
- Item lookups by id are not restricted to the request's cart. The remove and quantity routes act on
  the line wherever it is, including lines of closed carts.

## Model

| member | source | states |
|---|---|---|
| Text.Split | server/plugins/cart/services/ShoppingCartEmailService.js:67 | `split` yields at least one piece and no piece contains the separator |
| Text.SplitThenJoin | server/plugins/cart/services/ShoppingCartEmailService.js:67 | joining the pieces of a split with the same separator gives the string back |
| Text.JoinThenSplit | server/plugins/cart/services/ShoppingCartEmailService.js:93 | splitting a join of at least one separator-free piece gives the pieces back |
| Text.SplitCount | server/helpers.service.js:72 | a split has one more piece than the string has separators |
| Text.Trim | server/plugins/cart/services/ShoppingCartEmailService.js:64 | `trim` returns the contiguous inner slice that neither starts nor ends with whitespace; everything it drops, in front and behind, is whitespace |
| Text.TrimIdempotent | server/helpers.service.js:73 | trimming a trimmed string changes nothing |
| Text.ParseSigned | server/helpers.service.js:44 | `parseInt` is `NaN` exactly when no digit follows the optional sign |
| Text.ParseSignedLeading | server/helpers.service.js:44 | an optional sign, a run of digits and anything not starting with a digit parse to the run's decimal value, negated after `-` |
| Text.ParseIntLeading | server/helpers.service.js:43-51 | after leading whitespace, `parseInt` reads the longest digit run behind the optional sign and ignores what follows: `" +7px"` is 7 and `"-12.5"` is -12 |
| Text.IntToStringParses | server/plugins/cart/services/ShoppingCartEmailService.js:132 | `parseInt` of the decimal rendering of any integer gives that integer back |
| HelpersService.MakeArray | server/helpers.service.js:157-159 | an array is returned as is and any other value becomes a one-element array holding it |
| HelpersService.MakeArrayIdempotent | server/helpers.service.js:157-159 | applying `makeArray` to its own result changes nothing |
| HelpersService.TwoPointDecimal | server/helpers.service.js:163-165 | the result is the leading match of `^-?\d+(?:\.\d{0,2})?`: a prefix of the input of that shape that no longer prefix of the input has; there is no match exactly when no digit follows the optional minus, and then no prefix has the shape |
| HelpersService.TwoPointDecimalTruncates | server/helpers.service.js:163-165 | on `sign whole . decimals` the result keeps the sign, the whole part and the first two decimals: truncation, never rounding |
| HelpersService.TwoPointDecimalIdempotent | server/helpers.service.js:163-165 | applying `twoPointDecimal` to its own result changes nothing |
| HelpersService.RemoveTags | server/helpers.service.js:171 | the tag-stripping replace yields a subsequence of the input and leaves a string without `<` unchanged |
| HelpersService.RemoveTagsKeepsPlain | server/helpers.service.js:171 | the scan keeps a run of characters without `<` as it is and continues on what follows |
| HelpersService.RemoveTagsPlainPrefix | server/helpers.service.js:171 | a prefix without `<` stays in front of the stripped remainder |
| HelpersService.RemoveTagsDropsTag | server/helpers.service.js:171 | a tag `<inner>` at the front, with `inner` non-empty and free of `>`, is dropped whole |
| HelpersService.RemoveTagsTagFree | server/helpers.service.js:171 | no `<…>` tag remains after stripping |
| HelpersService.RemoveTagsOfTagFree | server/helpers.service.js:171 | a tag-free string is unchanged by stripping |
| HelpersService.StripTags | server/helpers.service.js:169-175 | falsy input comes back as is; otherwise the result is a tag-free subsequence, equal to the input when it has no `<` |
| HelpersService.StripTagsKeepsText | server/helpers.service.js:169-175 | one tag between plain text is removed and the text on both sides is kept: `a<b>c` becomes `ac` |
| HelpersService.StripTagsIdempotent | server/helpers.service.js:169-175 | stripping tags twice is the same as once |
| HelpersService.RemoveQuotes | server/helpers.service.js:179 | every `"` and `'` is removed and every other character is kept in order |
| HelpersService.RemoveQuotesOfQuoteFree | server/helpers.service.js:179 | a quote-free string is unchanged |
| HelpersService.StripQuotes | server/helpers.service.js:177-183 | falsy input comes back as is; otherwise all quotes go and the other characters stay in order |
| HelpersService.StripQuotesIdempotent | server/helpers.service.js:177-183 | stripping quotes twice is the same as once |
| QueryHelper.IntOrNull | server/helpers.service.js:43-51 | a set page size, page or limit is the parsed base-10 integer and never 0; `NaN` or 0 becomes null |
| QueryHelper.Fields | server/helpers.service.js:72-74 | an `andWhere` entry splits into one more field than it has commas |
| QueryHelper.FieldsOfJoin | server/helpers.service.js:72-74 | trimmed comma-free fields joined by commas split back into exactly those fields |
| QueryHelper.FieldsTrimmed | server/helpers.service.js:72-74 | every field of an entry is already trimmed: trimming it again changes nothing |
| QueryHelper.KeepTriples | server/helpers.service.js:70-80 | only entries of exactly three fields are kept, each field trimmed |
| QueryHelper.KeepTriplesByCommas | server/helpers.service.js:70-80 | an entry is kept exactly when it holds two commas, in the original order, as its three trimmed fields |
| QueryHelper.AndWhere | server/helpers.service.js:61-86 | filters are set exactly when `where` is truthy, `andWhere` is an array and some entry is kept, and they are then the kept entries |
| QueryHelper.Copied | server/helpers.service.js:55-60 | `orderBy` and `whereRaw` are copied exactly when truthy |
| QueryHelper.Build | server/helpers.service.js:29-90 | `orderDir` is `DESC` unless the query says exactly `ASC`; `pageSize`, `page` and `limit` are set exactly when given and parsing to a non-zero integer, and then hold that integer; `orderBy`, `where` and `whereRaw` are the query's values exactly when truthy; `andWhere` is the filter list above, only with `where` |
| QueryHelper.EmptyQueryDefaults | server/helpers.service.js:30-39 | an empty query gives every option null and `orderDir` `DESC` |
| QueryHelper.FetchPageConfig | server/helpers.service.js:102-122 | pages by `limit`, with that value, exactly when it is truthy, else by page size (default 100) and page (default 1); `withRelated` is the given list exactly when it is a non-empty array |
| QueryHelper.FetchPageNeverZero | server/helpers.service.js:105-118 | for any query the config never asks for a limit, page size or page of 0, and falls back to 100 and 1 |
| ShoppingCartEmail.MaxLength | server/plugins/cart/services/ShoppingCartEmailService.js:66 | `max` is `maxLen` parsed as an integer, or 25 when that is `NaN` or 0; never 0 |
| ShoppingCartEmail.Ending | server/plugins/cart/services/ShoppingCartEmailService.js:65 | the ending is `...` exactly when `suffix` is undefined, and empty otherwise |
| ShoppingCartEmail.Words | server/plugins/cart/services/ShoppingCartEmailService.js:67 | the words of a non-empty input contain no space and join back into it with spaces; an empty input has no words |
| ShoppingCartEmail.FitFrom | server/plugins/cart/services/ShoppingCartEmailService.js:72-86 | the loop keeps words while their running joined length stays within `max` and stops at the first that overflows |
| ShoppingCartEmail.WordCount | server/plugins/cart/services/ShoppingCartEmailService.js:72-86 | the first k words fit within `max` and the first k+1 do not |
| ShoppingCartEmail.Head | server/plugins/cart/services/ShoppingCartEmailService.js:89 | `substring(0, n)` is the prefix of length n clamped to the string |
| ShoppingCartEmail.WordPrefix | server/plugins/cart/services/ShoppingCartEmailService.js:72-93 | the body is a prefix of the trimmed input of at most `max` characters; it is the input when that fits, the first k words otherwise, ending before a space and the word that would overflow, or a hard cut at `max` when no word fits |
| ShoppingCartEmail.SubstringOnWords | server/plugins/cart/services/ShoppingCartEmailService.js:63-95 | the result is the trimmed input cut to that body, with the ending appended exactly when the body is shorter than the trimmed input (or `max` is negative) |
| ShoppingCartEmail.SubstringOnWordsFits | server/plugins/cart/services/ShoppingCartEmailService.js:72-94 | a trimmed input of at most `max` characters comes back unchanged, with no ending |
| ShoppingCartEmail.SubstringOnWordsPrefix | server/plugins/cart/services/ShoppingCartEmailService.js:63-95 | for positive `max`, the result without its ending is a prefix of the trimmed input of at most `max` characters; `...` is appended exactly when the input was longer than `max` and `suffix` is undefined |
| ShoppingCartEmail.ShippingName | server/plugins/cart/services/ShoppingCartEmailService.js:98-111 | the non-empty first and last names joined by one space; `''` when both are missing |
| ShoppingCartEmail.ShippingNameSplits | server/plugins/cart/services/ShoppingCartEmailService.js:98-111 | splitting the name of two space-free names on a space gives back the first and last names |
| ShoppingCartEmail.PurchaseDescription | server/plugins/cart/services/ShoppingCartEmailService.js:114-136 | null when `cart_items` is not an array; the quoted short title for one item; otherwise `and N more item(s)`, singular only for N = 1; `"null" and 0 more items` without a title |
| ShoppingCartEmail.ShortTitleBound | server/plugins/cart/services/ShoppingCartEmailService.js:123 | a title of at most 25 characters after trimming is kept whole, and the short title never exceeds 28 characters |
| ShoppingCartEmail.PurchaseDescriptionTitle | server/plugins/cart/services/ShoppingCartEmailService.js:121-132 | whenever the first item has a title, the description starts with its quoted short title, whatever the item count |
| ProductModel.DisplayPrice | server/plugins/products/models/Product.js:53-66 | the sale price when on sale with a non-zero sale price, else a non-zero base price, else 0; always one of the three |
| ProductModel.DisplayPriceFallsBackToBase | server/plugins/products/models/Product.js:55-63 | whenever the sale price does not apply, including on sale with a zero sale price, the result is the base price |
| UiStore.InitialState | store/ui.js:8-20 | the initial state has the sidebar open, is not mobile or in checkout, and has locale `en` among `['en', 'fr']` |
| UiStore.Apply | store/ui.js:22-54 | each mutation sets exactly its own field(s) as described, and the configuration fields never change |
| UiStore.ApplyPreservesValid | store/ui.js:46-50 | no mutation can make the locale leave `locales` |
| UiStore.RunPreservesValid | store/ui.js:22-54 | any sequence of mutations keeps the locale within `locales`, and `locales` unchanged |
| UiStore.ReachableLocales | store/ui.js:11-50 | from the initial state, the locale is always `en` or `fr` |
| UiStore.ToggleTwice | store/ui.js:31-33 | toggling the sidebar twice restores the state exactly |
| UiStore.ResizeSeparatesMobileAndSidebar | store/ui.js:39-44 | after a resize, exactly one of `isMobile` and `sidebarOpened` holds |
| UiStore.GetterReadsStoredFlag | store/ui.js:98-102 | the getter returns the last stored checkout flag, whatever mutations of other kinds follow |
| CartToken.ValidCartTokenFromRequest | server/plugins/shopping-cart/shoppingCartController.js:126-136 | the token is returned exactly when there is a cookie header and a non-empty `cart_token`, UUID or not |
| CartToken.OrCreateCartToken | server/plugins/shopping-cart/shoppingCartController.js:139-153 | the cookie token is kept exactly when it is a version 4 UUID; otherwise the fresh UUID is returned |
| CartToken.KeptTokenIsValid | server/plugins/shopping-cart/shoppingCartController.js:126-153 | whenever the creating reader keeps the cookie token, the validating reader returns the same token |
| CartToken.ValidReaderAcceptsAnyToken | server/plugins/shopping-cart/shoppingCartController.js:130 | a non-UUID token such as `abc` is accepted by the validating reader and replaced by the creating one |
| CartToken.UuidAcceptedByBoth | server/plugins/shopping-cart/shoppingCartController.js:126-153 | a well-formed version 4 UUID is kept by both readers |
| CartStore.ActiveCart | server/plugins/shopping-cart/shoppingCartController.js:211-226 | a cart is returned exactly for a non-empty token of a known cart without `closed_at` |
| CartStore.PreCart | server/plugins/shopping-cart/shoppingCartController.js:236-265 | without an active cart the request is answered with a new empty cart under the fresh token; otherwise the handler runs on the open cart of the cookie token |
| CartStore.ClosedCartNeverReused | server/plugins/shopping-cart/shoppingCartController.js:211-265 | a request carrying a closed cart's token is taken over with a new cart and the closed cart stays as it was |
| CartStore.FindVariant | server/plugins/shopping-cart/shoppingCartController.js:322-327 | the first line with this product and size, or none when no line matches |
| CartStore.QtyOrOne | server/plugins/shopping-cart/shoppingCartController.js:318 | a missing or zero quantity counts as 1 |
| CartStore.AddLine | server/plugins/shopping-cart/shoppingCartController.js:331-350 | a matching line's quantity grows by the amount and every other line stays; otherwise exactly one new line is appended |
| CartStore.AddItem | server/plugins/shopping-cart/shoppingCartController.js:301-370 | success exactly when the product exists; only the target cart changes; no payment changes |
| CartStore.AddToInactiveCart | server/plugins/shopping-cart/shoppingCartController.js:303-310 | adding without an active cart creates a cart under the fresh token holding just the new line; every existing cart, closed ones included, is untouched |
| CartStore.AddMergesVariant | server/plugins/shopping-cart/shoppingCartController.js:331-336 | a variant already in the cart has its quantity raised by the requested amount and keeps its id, product and size; the line count, the other lines and the cart's other fields are unchanged |
| CartStore.AddAppendsVariant | server/plugins/shopping-cart/shoppingCartController.js:337-350 | a new variant appends exactly one line with the requested quantity and size |
| CartStore.AddUnknownProduct | server/plugins/shopping-cart/shoppingCartController.js:312-316 | an unknown product is an error: every existing cart is unchanged, and the only possible new cart is the empty one the handler opened under the fresh token before looking up the product |
| CartStore.AddItemWf | server/plugins/shopping-cart/shoppingCartController.js:301-350 | adding keeps the store well formed: carts under their own tokens, positive quantities, one line per variant, item ids unique, no stored nonce |
| CartStore.Without | server/plugins/shopping-cart/shoppingCartController.js:385-387 | removal keeps only lines of the input and drops exactly the id from the cart's id set |
| CartStore.WithoutCount | server/plugins/shopping-cart/shoppingCartController.js:385-387 | with unique ids, removal shortens the cart by one line exactly when it held the id |
| CartStore.RemoveEverywhere | server/plugins/shopping-cart/shoppingCartController.js:377-387 | after removal no cart holds the id, and no cart or payment appears or disappears |
| CartStore.RemoveItem | server/plugins/shopping-cart/shoppingCartController.js:374-404 | removal always succeeds and never touches payments |
| CartStore.RemoveUnknownItem | server/plugins/shopping-cart/shoppingCartController.js:385-387 | removing an id no cart holds leaves the store exactly as it was |
| CartStore.RemoveKnownItem | server/plugins/shopping-cart/shoppingCartController.js:377-387 | removing a held id drops exactly that one line from its cart and changes no other cart |
| CartStore.WithQty | server/plugins/shopping-cart/shoppingCartController.js:417-420 | only the line with the id changes, and only its quantity |
| CartStore.SetItemQty | server/plugins/shopping-cart/shoppingCartController.js:408-434 | once `pre_cart` lets the request through, an id no cart holds is an `ItemNotFound` error that leaves the store unchanged; every other request succeeds; payments never change |
| CartStore.SetQtyReplaces | server/plugins/shopping-cart/shoppingCartController.js:417-420 | the new quantity (default 1) replaces the old one instead of adding to it; ids, variants and line counts are unchanged |
| CartStore.SetItemQtyWf | server/plugins/shopping-cart/shoppingCartController.js:408-434 | setting a quantity of at least 1 keeps the store well formed |
| CartStore.RemoveItemWf | server/plugins/shopping-cart/shoppingCartController.js:374-404 | removal keeps the store well formed |
| ShippingRates.Scan | server/plugins/shopping-cart/shoppingCartController.js:529-538 | the scan ends on a rate no more expensive than any other and strictly cheaper than every earlier one |
| ShippingRates.LowestShippingRate | server/plugins/shopping-cart/shoppingCartController.js:523-564 | for a non-empty list the first cheapest rate; for an empty or missing list the 5.00 USD USPS First-Class fallback |
| ShippingRates.FirstCheapestUnique | server/plugins/shopping-cart/shoppingCartController.js:533-537 | there is only one first cheapest rate, so the choice is fully determined |
| ShippingRates.LowestIsCheapest | server/plugins/shopping-cart/shoppingCartController.js:533-537 | the chosen rate costs no more than any quote |
| ShippingRates.LowestExample | server/plugins/shopping-cart/shoppingCartController.js:529-538 | quotes of 12.50, 8.00 and 9.99 select 8.00, and the earlier of two equal quotes wins |
| Shipment.BuildShippoOrder | server/plugins/shopping-cart/shoppingCartController.js:599-653 | a null cart, a missing shipping rate or a missing product is an error; otherwise there is one order line per item, in order, with its quantity, product, title and weight, and the total weight is the sum of weight times quantity |
| Shipment.CartWeightAppend | server/plugins/shopping-cart/shoppingCartController.js:638-641 | the total weight adds up over concatenated lines |
| Shipment.CartWeightUpdate | server/plugins/shopping-cart/shoppingCartController.js:638-641 | changing one line's quantity changes the total by that line's weight difference |
| Shipment.AddLineWeight | server/plugins/shopping-cart/shoppingCartController.js:638-641 | adding q of a product, by merge or append, adds its weight times q |
| Shipment.AddItemWeight | server/plugins/shopping-cart/shoppingCartController.js:301-350 | a successful add makes the target cart heavier by exactly the product's weight times the quantity |
| Checkout.ChargeFor | server/plugins/shopping-cart/shoppingCartController.js:703-736 | the charge is the stored grand total in USD with the payload's nonce as card nonce; the billing address is read from the payload's `billing_*` fields, the shipping address from the cart's `shipping_*` fields, and the buyer email is the cart's `shipping_email` |
| Checkout.LookupOrNull | server/plugins/shopping-cart/shoppingCartController.js:714 | `value || null`: a field is sent exactly when it is present and non-empty, and then with its value |
| Checkout.AddressFrom | server/plugins/shopping-cart/shoppingCartController.js:711-733 | each of the nine address fields is the value of its named field; the extended address, and for billing the company, are `null` when missing or empty |
| Checkout.AddressReadsOnlyItsKeys | server/plugins/shopping-cart/shoppingCartController.js:711-733 | an address depends on its nine named fields and on nothing else |
| Checkout.BillingIgnoresNonceAndPhone | server/plugins/shopping-cart/shoppingCartController.js:710-722 | the billing address is the same with the card nonce and `billing_phone` dropped from the payload: neither is sent in it |
| Checkout.Close | server/plugins/shopping-cart/shoppingCartController.js:754-781 | the closing patch writes every payload field but the nonce, keeps the rest, adds no other attribute, sets `closed_at` and leaves items, total and shipping rate alone |
| Checkout.CheckoutCart | server/plugins/shopping-cart/shoppingCartController.js:692-796 | the gateway is asked exactly when `pre_cart` lets the request through, and always for the stored total; a failure leaves the store unchanged; at most one payment is appended |
| Checkout.CheckoutClosesCart | server/plugins/shopping-cart/shoppingCartController.js:747-781 | a successful checkout appends one payment for the cart and closes it, so its token no longer names an active cart |
| Checkout.SecondCheckoutDoesNotCharge | server/plugins/shopping-cart/shoppingCartController.js:760-765 | repeating a completed checkout never reaches the gateway: it is taken over with a new empty cart and adds no payment |
| Checkout.DeclinedChargeChangesNothing | server/plugins/shopping-cart/shoppingCartController.js:703-747 | a charge that throws records no payment and leaves the cart open |
| Checkout.FailedCloseLeavesCartOpen | server/plugins/shopping-cart/shoppingCartController.js:772-781 | a failed close patch is swallowed: success is reported and the payment recorded, but the cart stays open and can be charged again |
| Checkout.UnsavedPaymentLeavesCartOpen | server/plugins/shopping-cart/shoppingCartController.js:747 | a charged payment that cannot be saved is reported as a failure and changes nothing in the store |
| Checkout.CheckoutWf | server/plugins/shopping-cart/shoppingCartController.js:754-757 | checkout keeps the store well formed, so the card nonce is never written to a cart |

## Left out

- Persistence: the ORM, eager loading (`getDefaultWithRelated`, `getCartByAttribute`, `getCart`), migrations and seed data. The store is modelled abstractly. Eager loading sorts `cart_items` by `created_at` descending (shoppingCartController.js:76-82), so cart responses and the Shippo order list the newest item first. The model keeps a cart's lines in the order they were added, and "in order" in the rows above means that sequence's order.
- The re-read of the cart for each response (`getCart` after a change). A handler's reply names the cart by token, and the store holds its contents.
- `cartGetHandler`, `getCartShippingRatesHandler`, `cartShippingSetAddressHandler` and `cartShippingRateHandler`. They are not part of this model: they only read, or they patch the cart with address or rate fields through the sales-tax and shipping services, whose source is not shown. The cart's shipping rate is an input of the model.
- Gateways: `runPayment`, PayPal, the Shippo order and shipment calls, the sales-tax service, Mailgun and the purchase emails. Each is a parameter or left out.
- The idempotency key and the UUIDs are random, so they are parameters. The clock is a parameter too.
- `server.events.emit`, `sendPurchaseConfirmationEmails`, logging and bug reporting. These are fire-and-forget side effects.
- Cookie parsing, query-string parsing and the Joi schemas. Their results are inputs, and the validation bounds are preconditions.
- Floating point: `parseFloat` on rate amounts, `grand_total * 100` and `accounting.toFixed`. Amounts are integer cents and weights integer hundredths of an ounce. The charge amount equals the stored total in cents, and a line's weight is kept exact instead of as a two-decimal string.
- Order fields the weight and line rules do not depend on: the address, `placed_at`, `order_number`, the subtotal, the tax and per-line prices. These come from columns and virtuals not shown.
- `bcrypt` password helpers, `getSiteUrl`, `isDev`. These are foreign crypto and environment lookups.
- The ORM query calls of `fetchPage`: `where`, `whereRaw`, `andWhere`, `orderBy`. `fetchPage` also tests `queryData.offset`, which `queryHelper` never sets, so no config carries an offset.
- The `ui` store's actions only commit the mutation of the same name, so they are not modelled separately. The message-instance bookkeeping is UI plumbing.
- Text.Trim: the whitespace set is the ASCII blanks, no-break space, byte-order mark and the two Unicode line separators. Other Unicode space characters that JavaScript's `trim` also removes are not included.
- Text.ParseSigned, Text.ParseIntLeading: the parsed value is exact. JavaScript's `parseInt` loses precision beyond 2^53, because it returns a double.
- QueryHelper.KeepTriples: every `andWhere[]` element is a string. The source would also keep a non-string element that is already a three-element array, which the bracket query-string format does not produce.
- ShoppingCartEmail.PurchaseDescription: `num_items` is taken as an integer. An undefined `num_items` (where `NaN` is falsy) is not modelled. A product title is a string or absent: a `title` key holding null or a non-string, on which the source throws in `substringOnWords` at `str.trim()`, is not modelled.
- ShippingRates.LowestShippingRate: amounts are compared as integer cents. A quote whose amount does not parse (`NaN`) is not modelled.
- ShoppingCartEmail.SubstringOnWords: lengths count Unicode code points, while JavaScript's `length` and `substring` count UTF-16 code units. Characters outside the Basic Multilingual Plane therefore count 1 here and 2 in the source, so the source cuts such text shorter and its hard cut at `max` may split a surrogate pair, as in `substringOnWords('😀😀😀', '2')`.
- CartStore.AddItem: the quantity is an integer. The route schema `Joi.number().min(1)` also admits fractions such as 1.5; the source stores a new line's quantity as given and truncates a merged sum with `parseInt` (shoppingCartController.js:333), which is not modelled.
- CartStore.SetItemQty: the quantity is an integer. A fractional quantity admitted by the route schema would be truncated by `parseInt` (shoppingCartController.js:418); that truncation is not modelled.
- Checkout.ChargeFor: a field the source leaves `undefined` and one it sets to `null` are both `None`. The translation of the charge request into the Square SDK's JSON is not modelled.

=== FILE: cart_store.dfy ===
/** The shopping-cart state behind the cart routes: carts keyed by their
    token, each holding line items, and the payments recorded at checkout.
    The ORM is replaced by this immutable store; every handler is a function
    from a store to the next store and a reply. Freshly minted UUIDs and
    database-assigned item ids are parameters. */
module CartStore {
  import opened Wrappers
  import opened CartToken
  import opened ProductModel
  import opened ShippingRates

  type Token = string
  type ItemId = string
  type PaymentId = string

  /** One line of a cart: a product in one size, `qty` times. */
  datatype LineItem = LineItem(id: ItemId, product: ProductId, size: Option<string>, qty: int)

  /** A cart. `attributes` holds the shipping and billing columns by name,
      `grandTotal` is in cents, and a set `closedAt` marks a checked-out cart. */
  datatype Cart = Cart(
    token: Token,
    items: seq<LineItem>,
    attributes: map<string, string>,
    grandTotal: int,
    shippingRate: Option<Rate>,
    closedAt: Option<int>)

  /** A recorded payment: which cart it paid for and the gateway's transaction. */
  datatype Payment = Payment(id: PaymentId, cartToken: Token, transaction: string)

  datatype Store = Store(carts: map<Token, Cart>, payments: seq<Payment>)

  datatype Error =
    | ProductNotFound
    | ItemNotFound
    | MissingCart
    | MissingShippingRate
    | PaymentFailed(reason: string)
    | PaymentNotSaved

  /** What a handler answers: a cart (with its token in `X-Cart-Token`) or
      the id of a recorded payment. */
  datatype Response = CartBody(token: Token) | TransactionBody(paymentId: PaymentId)

  datatype Outcome = Outcome(store: Store, reply: Result<Response, Error>)

  function EmptyCart(token: Token): Cart {
    Cart(token, [], map[], 0, None, None)
  }

  predicate IsOpen(c: Cart) {
    c.closedAt.None?
  }

  // ---------------------------------------------------------------- invariant

  function ItemIds(items: seq<LineItem>): set<ItemId> {
    set i | 0 <= i < |items| :: items[i].id
  }

  predicate SameVariant(a: LineItem, b: LineItem) {
    a.product == b.product && a.size == b.size
  }

  /** The lines of one cart: positive quantities, distinct ids, and at most
      one line per (product, size). */
  predicate LinesWf(items: seq<LineItem>) {
    && (forall i :: 0 <= i < |items| ==> items[i].qty >= 1)
    && (forall i, j :: 0 <= i < j < |items| ==> items[i].id != items[j].id)
    && (forall i, j :: 0 <= i < j < |items| ==> !SameVariant(items[i], items[j]))
  }

  predicate CartWf(t: Token, c: Cart) {
    c.token == t && LinesWf(c.items) && "nonce" !in c.attributes
  }

  /** The store's invariant: every cart is filed under its own token and is
      well formed, the card nonce is never stored, and no item id is used
      by two carts. */
  predicate Wf(s: Store) {
    && (forall t :: t in s.carts ==> CartWf(t, s.carts[t]))
    && (forall t, u :: t in s.carts && u in s.carts && t != u ==>
          ItemIds(s.carts[t].items) !! ItemIds(s.carts[u].items))
  }

  /** Some cart of the store holds a line with this id. */
  predicate ItemInStore(s: Store, id: ItemId) {
    exists t :: t in s.carts && id in ItemIds(s.carts[t].items)
  }

  /** Filing cart `c` under `t` keeps the store well formed as long as `c`
      is well formed and shares no item id with the other carts. */
  lemma PutCartWf(s: Store, t: Token, c: Cart)
    requires Wf(s) && CartWf(t, c)
    requires forall u :: u in s.carts && u != t ==> ItemIds(c.items) !! ItemIds(s.carts[u].items)
    ensures Wf(s.(carts := s.carts[t := c]))
  {
  }

  // ---------------------------------------------------------------- active cart

  /** `getActiveCart`: the cart of a non-empty token, unless it is unknown
      or closed. */
  function ActiveCart(s: Store, token: Option<Token>): (r: Option<Cart>)
    ensures r.Some? <==> token.Some? && token.value != "" && token.value in s.carts && IsOpen(s.carts[token.value])
    ensures r.Some? ==> r.value == s.carts[token.value]
  {
    if token.None? || token.value == "" then None
    else if token.value !in s.carts then None
    else
      var c := s.carts[token.value];
      if !IsOpen(c) then None else Some(c)
  }

  /** A store with a new empty cart under `t`. */
  function OpenCart(s: Store, t: Token): Store {
    s.(carts := s.carts[t := EmptyCart(t)])
  }

  lemma OpenCartWf(s: Store, t: Token)
    requires Wf(s) && t !in s.carts
    ensures Wf(OpenCart(s, t))
  {
    PutCartWf(s, t, EmptyCart(t));
  }

  datatype Gate =
    | Takeover(store: Store, token: Token)
    | Proceed(token: Token)

  /** `pre_cart`: a request without an active cart is answered right away
      with a new empty cart under the freshly minted `drawn`; otherwise the
      route's handler runs on the active cart. */
  function PreCart(s: Store, req: Request, drawn: Token): (p: Gate)
    requires drawn !in s.carts
    ensures p.Proceed? <==> ActiveCart(s, ValidCartTokenFromRequest(req)).Some?
    ensures p.Proceed? ==> ValidCartTokenFromRequest(req) == Some(p.token) && p.token in s.carts && IsOpen(s.carts[p.token])
    ensures p.Takeover? ==> p.token == drawn && p.store.carts == s.carts[drawn := EmptyCart(drawn)]
    ensures p.Takeover? ==> p.store.payments == s.payments
  {
    var token := ValidCartTokenFromRequest(req);
    if ActiveCart(s, token).None? then Takeover(OpenCart(s, drawn), drawn)
    else Proceed(token.value)
  }

  /** A closed cart is never handed to a handler: a request carrying its
      token is taken over with a new cart, and the closed cart stays as it was. */
  lemma ClosedCartNeverReused(s: Store, req: Request, drawn: Token)
    requires drawn !in s.carts
    requires ValidCartTokenFromRequest(req).Some?
    requires var t := ValidCartTokenFromRequest(req).value; t in s.carts && !IsOpen(s.carts[t])
    ensures PreCart(s, req, drawn).Takeover?
    ensures var t := ValidCartTokenFromRequest(req).value;
      PreCart(s, req, drawn).store.carts[t] == s.carts[t]
  {
  }

  // ---------------------------------------------------------------- adding

  /** `findByVariant`: the first line of `items` with this product and size. */
  function FindVariant(items: seq<LineItem>, product: ProductId, size: Option<string>): (r: Option<nat>)
    ensures r.Some? ==> r.value < |items| && items[r.value].product == product && items[r.value].size == size
    ensures r.Some? ==> forall j :: 0 <= j < r.value ==> !(items[j].product == product && items[j].size == size)
    ensures r.None? ==> forall j :: 0 <= j < |items| ==> !(items[j].product == product && items[j].size == size)
  {
    if |items| == 0 then None
    else if items[0].product == product && items[0].size == size then Some(0)
    else
      match FindVariant(items[1..], product, size)
      case Some(j) => Some(j + 1)
      case None => None
  }

  /** `qty || 1`, the quantity both the add and the quantity routes store
      for a missing or zero request value. */
  function QtyOrOne(qty: Option<int>): (q: int)
    ensures qty.Some? && qty.value != 0 ==> q == qty.value
    ensures qty.None? || qty.value == 0 ==> q == 1
  {
    if qty.Some? && qty.value != 0 then qty.value else 1
  }

  /** The lines after adding `q` of a variant: the matching line's quantity
      grows, or a new line `id` is appended. */
  function AddLine(items: seq<LineItem>, product: ProductId, size: Option<string>, q: int, id: ItemId): (r: seq<LineItem>)
    ensures FindVariant(items, product, size).Some? ==>
      var i := FindVariant(items, product, size).value;
      |r| == |items| && r[i] == items[i].(qty := items[i].qty + q)
      && forall j :: 0 <= j < |items| && j != i ==> r[j] == items[j]
    ensures FindVariant(items, product, size).None? ==> r == items + [LineItem(id, product, size, q)]
  {
    match FindVariant(items, product, size)
    case Some(i) => items[i := items[i].(qty := items[i].qty + q)]
    case None => items + [LineItem(id, product, size, q)]
  }

  lemma AddLineWf(items: seq<LineItem>, product: ProductId, size: Option<string>, q: int, id: ItemId)
    requires LinesWf(items) && q >= 1 && id !in ItemIds(items)
    ensures LinesWf(AddLine(items, product, size, q, id))
    ensures ItemIds(AddLine(items, product, size, q, id)) <= ItemIds(items) + {id}
  {
    var r := AddLine(items, product, size, q, id);
    if FindVariant(items, product, size).None? {
      forall i | 0 <= i < |items|
        ensures r[i].id != id && !SameVariant(r[i], r[|items|])
      {
        assert items[i].id in ItemIds(items);
      }
    }
  }

  /** The cart the item goes into: the active one, or a new one under `drawn`. */
  function AddTarget(s: Store, req: Request, drawn: Token): Token {
    if ActiveCart(s, ValidCartTokenFromRequest(req)).Some? then ValidCartTokenFromRequest(req).value else drawn
  }

  /** The store once the target cart exists. */
  function WithTarget(s: Store, req: Request, drawn: Token): Store {
    if ActiveCart(s, ValidCartTokenFromRequest(req)).Some? then s else OpenCart(s, drawn)
  }

  /** `cartItemAddHandler` (payload `id`, `options.size`, `options.qty`):
      find or create the active cart, look the product up in `catalog`, then
      merge into the line of the same variant or add line `newItem`. The
      new cart, if one was made, survives a failed product lookup. */
  function AddItem(s: Store, req: Request, drawn: Token, newItem: ItemId,
                   catalog: map<ProductId, Product>, productId: ProductId,
                   size: Option<string>, qty: Option<int>): (o: Outcome)
    requires drawn !in s.carts
    requires qty.Some? ==> qty.value >= 1
    ensures o.reply.Success? <==> productId in catalog
    ensures o.reply.Failure? ==> o.reply.error == ProductNotFound
    ensures o.reply.Success? ==> o.reply.value == CartBody(AddTarget(s, req, drawn))
    ensures o.store.payments == s.payments
    ensures o.store.carts.Keys == WithTarget(s, req, drawn).carts.Keys
    ensures forall t :: t in o.store.carts && t != AddTarget(s, req, drawn) ==> o.store.carts[t] == s.carts[t]
  {
    var t := AddTarget(s, req, drawn);
    var s1 := WithTarget(s, req, drawn);
    if productId !in catalog then Outcome(s1, Failure(ProductNotFound))
    else
      var q := QtyOrOne(qty);
      var c := s1.carts[t];
      var c' := c.(items := AddLine(c.items, productId, size, q, newItem));
      Outcome(s1.(carts := s1.carts[t := c']), Success(CartBody(t)))
  }

  /** Adding to a missing or closed cart: the item lands in a new cart under
      `drawn`, and every existing cart, the closed one included, is untouched. */
  lemma AddToInactiveCart(s: Store, req: Request, drawn: Token, newItem: ItemId,
                          catalog: map<ProductId, Product>, productId: ProductId,
                          size: Option<string>, qty: Option<int>)
    requires drawn !in s.carts
    requires qty.Some? ==> qty.value >= 1
    requires ActiveCart(s, ValidCartTokenFromRequest(req)).None?
    requires productId in catalog
    ensures var o := AddItem(s, req, drawn, newItem, catalog, productId, size, qty);
      && o.reply == Success(CartBody(drawn))
      && o.store.carts.Keys == s.carts.Keys + {drawn}
      && (forall t :: t in s.carts ==> o.store.carts[t] == s.carts[t])
      && o.store.carts[drawn].items == [LineItem(newItem, productId, size, QtyOrOne(qty))]
      && IsOpen(o.store.carts[drawn])
  {
  }

  /** Adding a variant the active cart already holds raises that line's
      quantity by the requested amount and changes no other line. */
  lemma AddMergesVariant(s: Store, req: Request, drawn: Token, newItem: ItemId,
                         catalog: map<ProductId, Product>, productId: ProductId,
                         size: Option<string>, qty: Option<int>)
    requires drawn !in s.carts
    requires qty.Some? ==> qty.value >= 1
    requires ActiveCart(s, ValidCartTokenFromRequest(req)).Some?
    requires productId in catalog
    requires var c := ActiveCart(s, ValidCartTokenFromRequest(req)).value;
      FindVariant(c.items, productId, size).Some?
    ensures var t := ValidCartTokenFromRequest(req).value;
      var c := s.carts[t];
      var i := FindVariant(c.items, productId, size).value;
      var c' := AddItem(s, req, drawn, newItem, catalog, productId, size, qty).store.carts[t];
      && |c'.items| == |c.items|
      && c'.items[i].qty == c.items[i].qty + QtyOrOne(qty)
      && c'.items[i].id == c.items[i].id
      && c'.items[i].product == c.items[i].product && c'.items[i].size == c.items[i].size
      && (forall j :: 0 <= j < |c.items| && j != i ==> c'.items[j] == c.items[j])
      && c'.(items := c.items) == c
  {
  }

  /** Adding a variant the active cart does not hold appends exactly one line
      with the requested quantity and size. */
  lemma AddAppendsVariant(s: Store, req: Request, drawn: Token, newItem: ItemId,
                          catalog: map<ProductId, Product>, productId: ProductId,
                          size: Option<string>, qty: Option<int>)
    requires drawn !in s.carts
    requires qty.Some? ==> qty.value >= 1
    requires ActiveCart(s, ValidCartTokenFromRequest(req)).Some?
    requires productId in catalog
    requires var c := ActiveCart(s, ValidCartTokenFromRequest(req)).value;
      FindVariant(c.items, productId, size).None?
    ensures var t := ValidCartTokenFromRequest(req).value;
      AddItem(s, req, drawn, newItem, catalog, productId, size, qty).store.carts[t].items
        == s.carts[t].items + [LineItem(newItem, productId, size, QtyOrOne(qty))]
  {
  }

  /** An unknown product is an error and no cart gains a line; at most an
      empty new cart appears. */
  lemma AddUnknownProduct(s: Store, req: Request, drawn: Token, newItem: ItemId,
                          catalog: map<ProductId, Product>, productId: ProductId,
                          size: Option<string>, qty: Option<int>)
    requires drawn !in s.carts
    requires qty.Some? ==> qty.value >= 1
    requires productId !in catalog
    ensures var o := AddItem(s, req, drawn, newItem, catalog, productId, size, qty);
      && o.reply == Failure(ProductNotFound)
      && (forall t :: t in o.store.carts ==>
            o.store.carts[t] == (if t in s.carts then s.carts[t] else EmptyCart(t)))
  {
  }

  /** Adding an item keeps the store well formed, given that the database
      hands out an item id no cart uses. */
  lemma AddItemWf(s: Store, req: Request, drawn: Token, newItem: ItemId,
                  catalog: map<ProductId, Product>, productId: ProductId,
                  size: Option<string>, qty: Option<int>)
    requires Wf(s) && drawn !in s.carts && !ItemInStore(s, newItem)
    requires qty.Some? ==> qty.value >= 1
    ensures Wf(AddItem(s, req, drawn, newItem, catalog, productId, size, qty).store)
  {
    var t := AddTarget(s, req, drawn);
    var s1 := WithTarget(s, req, drawn);
    if s1 != s {
      OpenCartWf(s, drawn);
    }
    assert Wf(s1);
    if productId in catalog {
      var c := s1.carts[t];
      var q := QtyOrOne(qty);
      assert newItem !in ItemIds(c.items) by {
        if t in s.carts {
          assert !(newItem in ItemIds(s.carts[t].items));
        }
      }
      AddLineWf(c.items, productId, size, q, newItem);
      var c' := c.(items := AddLine(c.items, productId, size, q, newItem));
      forall u | u in s1.carts && u != t
        ensures ItemIds(c'.items) !! ItemIds(s1.carts[u].items)
      {
        assert u in s.carts;
        assert newItem !in ItemIds(s.carts[u].items);
      }
      PutCartWf(s1, t, c');
    }
  }

  // ---------------------------------------------------------------- removing

  /** The ids of a line followed by more lines. */
  lemma ItemIdsCons(x: LineItem, rest: seq<LineItem>)
    ensures ItemIds([x] + rest) == {x.id} + ItemIds(rest)
  {
    var r := [x] + rest;
    assert r[0].id == x.id;
    forall y | y in ItemIds(r) ensures y in {x.id} + ItemIds(rest) {
      var i :| 0 <= i < |r| && r[i].id == y;
      if i > 0 { assert rest[i - 1].id == y; }
    }
    forall y | y in ItemIds(rest) ensures y in ItemIds(r) {
      var i :| 0 <= i < |rest| && rest[i].id == y;
      assert r[i + 1].id == y;
    }
  }

  lemma ItemIdsSplit(items: seq<LineItem>)
    requires |items| > 0
    ensures ItemIds(items) == {items[0].id} + ItemIds(items[1..])
  {
    assert items == [items[0]] + items[1..];
    ItemIdsCons(items[0], items[1..]);
  }

  /** The lines of `items` other than those with id `id`, in order. */
  function Without(items: seq<LineItem>, id: ItemId): (r: seq<LineItem>)
    ensures |r| <= |items|
    ensures ItemIds(r) == ItemIds(items) - {id}
    ensures forall i :: 0 <= i < |r| ==> r[i] in items
  {
    if |items| == 0 then []
    else
      var rest := Without(items[1..], id);
      ItemIdsSplit(items);
      if items[0].id == id then rest
      else
        ItemIdsCons(items[0], rest);
        [items[0]] + rest
  }

  /** Without a line carrying `id`, removal leaves the lines as they are. */
  lemma {:induction false} WithoutAbsent(items: seq<LineItem>, id: ItemId)
    requires id !in ItemIds(items)
    ensures Without(items, id) == items
  {
    if |items| > 0 {
      ItemIdsSplit(items);
      WithoutAbsent(items[1..], id);
    }
  }

  /** With distinct ids, removal drops exactly one line when the id is there. */
  lemma {:induction false} WithoutCount(items: seq<LineItem>, id: ItemId)
    requires forall i, j :: 0 <= i < j < |items| ==> items[i].id != items[j].id
    ensures |Without(items, id)| == |items| - (if id in ItemIds(items) then 1 else 0)
  {
    if |items| > 0 {
      var tail := items[1..];
      ItemIdsSplit(items);
      WithoutCount(tail, id);
      assert items[0].id !in ItemIds(tail) by {
        forall k | 0 <= k < |tail| ensures tail[k].id != items[0].id {
          assert tail[k] == items[k + 1];
        }
      }
    }
  }

  /** `findById(id).destroy()`: item ids are store-wide, so the line goes
      from whichever cart holds it. */
  function RemoveEverywhere(s: Store, id: ItemId): (s': Store)
    ensures s'.carts.Keys == s.carts.Keys && s'.payments == s.payments
    ensures !ItemInStore(s', id)
  {
    s.(carts := map t | t in s.carts :: s.carts[t].(items := Without(s.carts[t].items, id)))
  }

  /** `cartItemRemoveHandler`, behind `pre_cart`. */
  function RemoveItem(s: Store, req: Request, drawn: Token, id: ItemId): (o: Outcome)
    requires drawn !in s.carts
    ensures o.reply.Success?
    ensures o.store.payments == s.payments
  {
    match PreCart(s, req, drawn)
    case Takeover(s1, t) => Outcome(s1, Success(CartBody(t)))
    case Proceed(t) => Outcome(RemoveEverywhere(s, id), Success(CartBody(t)))
  }

  /** Removing an id no cart holds is a silent no-op. */
  lemma RemoveUnknownItem(s: Store, req: Request, drawn: Token, id: ItemId)
    requires drawn !in s.carts
    requires PreCart(s, req, drawn).Proceed?
    requires !ItemInStore(s, id)
    ensures RemoveItem(s, req, drawn, id) == Outcome(s, Success(CartBody(PreCart(s, req, drawn).token)))
  {
    var s' := RemoveEverywhere(s, id);
    forall t | t in s.carts ensures s'.carts[t] == s.carts[t] {
      WithoutAbsent(s.carts[t].items, id);
    }
    assert s'.carts == s.carts;
  }

  /** Removing a held id takes exactly that one line out of its cart; every
      other id of that cart stays, and no other cart changes. */
  lemma RemoveKnownItem(s: Store, req: Request, drawn: Token, id: ItemId, t: Token)
    requires Wf(s) && drawn !in s.carts
    requires PreCart(s, req, drawn).Proceed?
    requires t in s.carts && id in ItemIds(s.carts[t].items)
    ensures var s' := RemoveItem(s, req, drawn, id).store;
      && !ItemInStore(s', id)
      && |s'.carts[t].items| == |s.carts[t].items| - 1
      && ItemIds(s'.carts[t].items) == ItemIds(s.carts[t].items) - {id}
      && (forall u :: u in s.carts && u != t ==> s'.carts[u] == s.carts[u])
  {
    WithoutCount(s.carts[t].items, id);
    forall u | u in s.carts && u != t
      ensures RemoveEverywhere(s, id).carts[u] == s.carts[u]
    {
      WithoutAbsent(s.carts[u].items, id);
    }
  }

  // ---------------------------------------------------------------- quantity

  /** The lines of `items` with the line `id` set to quantity `q`. */
  function WithQty(items: seq<LineItem>, id: ItemId, q: int): (r: seq<LineItem>)
    ensures |r| == |items|
    ensures forall i :: 0 <= i < |items| && items[i].id == id ==> r[i] == items[i].(qty := q)
    ensures forall i :: 0 <= i < |items| && items[i].id != id ==> r[i] == items[i]
  {
    seq(|items|, i requires 0 <= i < |items| => if items[i].id == id then items[i].(qty := q) else items[i])
  }

  function SetQtyEverywhere(s: Store, id: ItemId, q: int): (s': Store)
    ensures s'.carts.Keys == s.carts.Keys && s'.payments == s.payments
  {
    s.(carts := map t | t in s.carts :: s.carts[t].(items := WithQty(s.carts[t].items, id, q)))
  }

  /** `cartItemQtyHandler`, behind `pre_cart`: an unknown id is an error. */
  function SetItemQty(s: Store, req: Request, drawn: Token, id: ItemId, qty: Option<int>): (o: Outcome)
    requires drawn !in s.carts
    ensures o.reply.Failure? <==> PreCart(s, req, drawn).Proceed? && !ItemInStore(s, id)
    ensures o.reply.Failure? ==> o.reply.error == ItemNotFound && o.store == s
    ensures o.store.payments == s.payments
  {
    match PreCart(s, req, drawn)
    case Takeover(s1, t) => Outcome(s1, Success(CartBody(t)))
    case Proceed(t) =>
      if !ItemInStore(s, id) then Outcome(s, Failure(ItemNotFound))
      else Outcome(SetQtyEverywhere(s, id, QtyOrOne(qty)), Success(CartBody(t)))
  }

  /** The new quantity replaces the old one instead of adding to it; no
      other line and no line count changes. */
  lemma SetQtyReplaces(s: Store, req: Request, drawn: Token, id: ItemId, qty: Option<int>, t: Token, i: int)
    requires drawn !in s.carts
    requires PreCart(s, req, drawn).Proceed? && ItemInStore(s, id)
    requires t in s.carts && 0 <= i < |s.carts[t].items|
    ensures var c' := SetItemQty(s, req, drawn, id, qty).store.carts[t];
      && |c'.items| == |s.carts[t].items|
      && c'.items[i].qty == (if s.carts[t].items[i].id == id then QtyOrOne(qty) else s.carts[t].items[i].qty)
      && c'.items[i].id == s.carts[t].items[i].id
      && SameVariant(c'.items[i], s.carts[t].items[i])
  {
  }

  /** Changing the lines of carts in place keeps the store well formed when
      each changed cart is well formed and uses no id it did not use before. */
  lemma RelinedWf(s: Store, s': Store)
    requires Wf(s) && s'.carts.Keys == s.carts.Keys
    requires forall t :: t in s.carts ==>
      CartWf(t, s'.carts[t]) && ItemIds(s'.carts[t].items) <= ItemIds(s.carts[t].items)
    ensures Wf(s')
  {
  }

  lemma WithQtyWf(items: seq<LineItem>, id: ItemId, q: int)
    requires LinesWf(items) && q >= 1
    ensures LinesWf(WithQty(items, id, q))
    ensures ItemIds(WithQty(items, id, q)) == ItemIds(items)
  {
    var r := WithQty(items, id, q);
    assert forall k :: 0 <= k < |items| ==> r[k].id == items[k].id;
    assert forall x :: x in ItemIds(items) ==> x in ItemIds(r);
  }

  lemma SetItemQtyWf(s: Store, req: Request, drawn: Token, id: ItemId, qty: Option<int>)
    requires Wf(s) && drawn !in s.carts
    requires qty.Some? ==> qty.value >= 1
    ensures Wf(SetItemQty(s, req, drawn, id, qty).store)
  {
    if PreCart(s, req, drawn).Takeover? {
      OpenCartWf(s, drawn);
    } else if ItemInStore(s, id) {
      var q := QtyOrOne(qty);
      var s' := SetQtyEverywhere(s, id, q);
      forall t | t in s.carts
        ensures CartWf(t, s'.carts[t]) && ItemIds(s'.carts[t].items) <= ItemIds(s.carts[t].items)
      {
        WithQtyWf(s.carts[t].items, id, q);
      }
      RelinedWf(s, s');
    }
  }

  lemma RemoveItemWf(s: Store, req: Request, drawn: Token, id: ItemId)
    requires Wf(s) && drawn !in s.carts
    ensures Wf(RemoveItem(s, req, drawn, id).store)
  {
    if PreCart(s, req, drawn).Takeover? {
      OpenCartWf(s, drawn);
    } else {
      var s' := RemoveEverywhere(s, id);
      forall t | t in s.carts
        ensures CartWf(t, s'.carts[t]) && ItemIds(s'.carts[t].items) <= ItemIds(s.carts[t].items)
      {
        WithoutWf(s.carts[t].items, id);
      }
      RelinedWf(s, s');
    }
  }

  /** A line put in front of well-formed lines it clashes with in neither
      id nor variant. */
  lemma ConsWf(x: LineItem, rest: seq<LineItem>)
    requires LinesWf(rest) && x.qty >= 1
    requires forall y :: y in rest ==> y.id != x.id && !SameVariant(x, y)
    ensures LinesWf([x] + rest)
  {
    var r := [x] + rest;
    forall j | 0 < j < |r| ensures r[j].id != x.id && !SameVariant(x, r[j]) {
      assert r[j] == rest[j - 1];
    }
  }

  lemma HeadDistinct(items: seq<LineItem>)
    requires LinesWf(items) && |items| > 0
    ensures forall y :: y in items[1..] ==> y.id != items[0].id && !SameVariant(items[0], y)
  {
    forall y | y in items[1..] ensures y.id != items[0].id && !SameVariant(items[0], y) {
      var k :| 0 <= k < |items[1..]| && items[1..][k] == y;
      assert items[k + 1] == y;
    }
  }

  /** Removal keeps the lines of a cart well formed. */
  lemma {:induction false} WithoutWf(items: seq<LineItem>, id: ItemId)
    requires LinesWf(items)
    ensures LinesWf(Without(items, id))
  {
    if |items| > 0 {
      assert LinesWf(items[1..]);
      WithoutWf(items[1..], id);
      if items[0].id != id {
        var rest := Without(items[1..], id);
        HeadDistinct(items);
        assert forall y :: y in rest ==> y in items[1..];
        ConsWf(items[0], rest);
      }
    }
  }
}

=== FILE: cart_token.dfy ===
/** Where the cart token of a request comes from: the `cart_token` cookie,
    checked two different ways by the two readers the controller has. The fresh
    UUID `uuidV4()` would draw is a parameter. */
module CartToken {
  import opened Wrappers

  /** A request as far as the token readers look at it: the raw `Cookie`
      header (`None` when absent or empty) and the `cart_token` value that
      parsing it yields (`None` when the cookie has no such entry). */
  datatype Request = Request(cookieHeader: Option<string>, cartTokenCookie: Option<string>)

  /** `request.headers.cookie` is truthy. */
  predicate HasCookieHeader(req: Request) {
    req.cookieHeader.Some? && req.cookieHeader.value != ""
  }

  predicate IsHexDigit(c: char) {
    ('0' <= c <= '9') || ('a' <= c <= 'f') || ('A' <= c <= 'F')
  }

  predicate IsHyphenPosition(i: int) {
    i == 8 || i == 13 || i == 18 || i == 23
  }

  /** `uuidValidate(t, 4)`: the textual form of a version 4 UUID of section
      4.4 of RFC 4122 — 36 characters, hyphens at positions 8, 13, 18 and
      23, hexadecimal digits elsewhere, version digit `4` at position 14 and
      variant digit `8`, `9`, `a` or `b` at position 19. */
  predicate IsUuidV4(t: string) {
    && |t| == 36
    && (forall i :: 0 <= i < 36 && IsHyphenPosition(i) ==> t[i] == '-')
    && (forall i :: 0 <= i < 36 && !IsHyphenPosition(i) ==> IsHexDigit(t[i]))
    && t[14] == '4'
    && t[19] in "89abAB"
  }

  /** `getValidCartTokenFromRequest`: the cookie token if there is a cookie
      header and the token is truthy or a version 4 UUID; `false` is `None`. */
  function ValidCartTokenFromRequest(req: Request): (r: Option<string>)
    ensures r.Some? <==> HasCookieHeader(req) && req.cartTokenCookie.Some? && req.cartTokenCookie.value != ""
    ensures r.Some? ==> r == req.cartTokenCookie
  {
    if HasCookieHeader(req) then
      var token := req.cartTokenCookie;
      if (token.Some? && token.value != "") || (token.Some? && IsUuidV4(token.value)) then token
      else None
    else None
  }

  /** `getOrCreateCartToken`: the cookie token when it is a version 4 UUID,
      otherwise the newly drawn UUID `drawn`. */
  function OrCreateCartToken(req: Request, drawn: string): (r: string)
    ensures r == drawn || (req.cartTokenCookie.Some? && r == req.cartTokenCookie.value && IsUuidV4(r))
    ensures HasCookieHeader(req) && req.cartTokenCookie.Some? && IsUuidV4(req.cartTokenCookie.value)
      ==> r == req.cartTokenCookie.value
    ensures !(HasCookieHeader(req) && req.cartTokenCookie.Some? && IsUuidV4(req.cartTokenCookie.value))
      ==> r == drawn
  {
    if !HasCookieHeader(req) then drawn
    else
      var token := req.cartTokenCookie;
      if token.None? || token.value == "" || !IsUuidV4(token.value) then drawn
      else token.value
  }

  /** Whenever the creating reader keeps the cookie token, the validating
      reader returns that same token. */
  lemma KeptTokenIsValid(req: Request, drawn: string)
    requires OrCreateCartToken(req, drawn) != drawn
    ensures ValidCartTokenFromRequest(req) == Some(OrCreateCartToken(req, drawn))
  {
  }

  /** The converse fails: the UUID test in the validating reader is
      redundant, so any non-empty token passes it, UUID or not. */
  lemma ValidReaderAcceptsAnyToken()
    ensures var req := Request(Some("cart_token=abc"), Some("abc"));
      ValidCartTokenFromRequest(req) == Some("abc") && OrCreateCartToken(req, "new-token") == "new-token"
  {
    var t := "abc";
    assert !IsUuidV4(t);
  }

  /** A well-formed token is kept by both readers. */
  lemma UuidAcceptedByBoth()
    ensures var t := "00000000-0000-4000-8000-000000000000";
      var req := Request(Some("cart_token=" + t), Some(t));
      ValidCartTokenFromRequest(req) == Some(t) && OrCreateCartToken(req, "new-token") == t
  {
    var t := "00000000-0000-4000-8000-000000000000";
    assert forall i :: 0 <= i < 36 && IsHyphenPosition(i) ==> t[i] == '-';
    assert forall i :: 0 <= i < 36 && !IsHyphenPosition(i) ==> IsHexDigit(t[i]);
  }
}

=== FILE: checkout.dfy ===
/** `cartCheckoutHandler` as a state transition: charge the stored total,
    record the payment, then close the cart with the billing fields. The
    payment gateway, the idempotency key, the clock, the payment id the
    database assigns and the success of the two database writes are all
    parameters. */
module Checkout {
  import opened Wrappers
  import opened CartToken
  import opened CartStore

  /** A Square `Address` object. `None` is a field the source sets to
      `undefined` or `null`. */
  datatype Address = Address(
    line1: Option<string>,
    line2: Option<string>,
    locality: Option<string>,
    district: Option<string>,
    postalCode: Option<string>,
    country: Option<string>,
    firstName: Option<string>,
    lastName: Option<string>,
    organization: Option<string>)

  /** What the payment gateway is asked to charge. */
  datatype ChargeRequest = ChargeRequest(
    idempotencyKey: string,
    amount: int,
    currency: string,
    cardNonce: string,
    billing: Address,
    shipping: Address,
    buyerEmail: Option<string>)

  /** `m[k]`: the value when the key is there, `undefined` otherwise. */
  function Lookup(m: map<string, string>, k: string): (v: Option<string>)
    ensures v.Some? <==> k in m
    ensures v.Some? ==> v.value == m[k]
  {
    if k in m then Some(m[k]) else None
  }

  /** `m[k] || null`: a missing or empty value becomes `null`. */
  function LookupOrNull(m: map<string, string>, k: string): (v: Option<string>)
    ensures v.Some? <==> k in m && m[k] != ""
    ensures v.Some? ==> v == Lookup(m, k)
  {
    if k in m && m[k] != "" then Some(m[k]) else None
  }

  /** The nine keys an address is read from, under `prefix`. */
  function AddressKeys(prefix: string): set<string> {
    {prefix + "streetAddress", prefix + "extendedAddress", prefix + "city", prefix + "state",
     prefix + "postalCode", prefix + "countryCodeAlpha2", prefix + "firstName", prefix + "lastName",
     prefix + "company"}
  }

  /** The address object built from the `prefix`-named fields of `m`. The
      extended address is always `|| null`; the company is `|| null` only
      when `companyOrNull` holds (billing, not shipping). */
  function AddressFrom(m: map<string, string>, prefix: string, companyOrNull: bool): (a: Address)
    ensures a.line1 == Lookup(m, prefix + "streetAddress")
    ensures a.line2 == LookupOrNull(m, prefix + "extendedAddress")
    ensures a.locality == Lookup(m, prefix + "city")
    ensures a.district == Lookup(m, prefix + "state")
    ensures a.postalCode == Lookup(m, prefix + "postalCode")
    ensures a.country == Lookup(m, prefix + "countryCodeAlpha2")
    ensures a.firstName == Lookup(m, prefix + "firstName")
    ensures a.lastName == Lookup(m, prefix + "lastName")
    ensures a.organization == (if companyOrNull then LookupOrNull(m, prefix + "company")
                               else Lookup(m, prefix + "company"))
  {
    Address(
      line1 := Lookup(m, prefix + "streetAddress"),
      line2 := LookupOrNull(m, prefix + "extendedAddress"),
      locality := Lookup(m, prefix + "city"),
      district := Lookup(m, prefix + "state"),
      postalCode := Lookup(m, prefix + "postalCode"),
      country := Lookup(m, prefix + "countryCodeAlpha2"),
      firstName := Lookup(m, prefix + "firstName"),
      lastName := Lookup(m, prefix + "lastName"),
      organization := if companyOrNull then LookupOrNull(m, prefix + "company")
                      else Lookup(m, prefix + "company"))
  }

  /** Whether `m1` and `m2` hold the same entries for every key of `keys`. */
  predicate AgreeOn(m1: map<string, string>, m2: map<string, string>, keys: set<string>) {
    forall k :: k in keys ==> (k in m1 <==> k in m2) && (k in m1 ==> m1[k] == m2[k])
  }

  /** An address depends on its nine named fields and on nothing else. */
  lemma AddressReadsOnlyItsKeys(m1: map<string, string>, m2: map<string, string>,
                                prefix: string, companyOrNull: bool)
    requires AgreeOn(m1, m2, AddressKeys(prefix))
    ensures AddressFrom(m1, prefix, companyOrNull) == AddressFrom(m2, prefix, companyOrNull)
  {
    var keys := AddressKeys(prefix);
    assert prefix + "streetAddress" in keys && prefix + "extendedAddress" in keys;
    assert prefix + "city" in keys && prefix + "state" in keys && prefix + "postalCode" in keys;
    assert prefix + "countryCodeAlpha2" in keys && prefix + "firstName" in keys;
    assert prefix + "lastName" in keys && prefix + "company" in keys;
  }

  /** The billing address never carries the card nonce or the billing phone:
      dropping them from the payload leaves it as it is. */
  lemma BillingIgnoresNonceAndPhone(payload: map<string, string>)
    ensures AddressFrom(payload, "billing_", true)
         == AddressFrom(payload - {"nonce", "billing_phone"}, "billing_", true)
  {
    var keys := AddressKeys("billing_");
    assert "billing_phone" != "billing_" + "state" by {
      assert "billing_phone"[8] == 'p' && ("billing_" + "state")[8] == 's';
    }
    assert "nonce" !in keys && "billing_phone" !in keys;
    AddressReadsOnlyItsKeys(payload, payload - {"nonce", "billing_phone"}, "billing_", true);
  }

  /** `runPayment` either returns a transaction or throws. */
  datatype ChargeOutcome = Charged(transaction: string) | Threw(reason: string)

  /** A checkout reply, the next store, and the request sent to the gateway
      (`None` when the gateway was never asked). */
  datatype CheckoutOutcome = CheckoutOutcome(store: Store, reply: Result<Response, Error>, charged: Option<ChargeRequest>)

  /** The validated checkout payload is a card `nonce` plus billing fields. */
  predicate ValidPayload(payload: map<string, string>) {
    "nonce" in payload && payload["nonce"] != ""
  }

  /** The charge for a cart: its stored `grand_total`, never a recomputed
      sum of its items, in US dollars. */
  function ChargeFor(cart: Cart, payload: map<string, string>, key: string): (r: ChargeRequest)
    requires ValidPayload(payload)
    ensures r.amount == cart.grandTotal && r.currency == "USD"
    ensures r.cardNonce == payload["nonce"]
    ensures r.billing == AddressFrom(payload, "billing_", true)
    ensures r.shipping == AddressFrom(cart.attributes, "shipping_", false)
    ensures r.buyerEmail == Lookup(cart.attributes, "shipping_email")
  {
    ChargeRequest(
      idempotencyKey := key,
      amount := cart.grandTotal,
      currency := "USD",
      cardNonce := payload["nonce"],
      billing := AddressFrom(payload, "billing_", true),
      shipping := AddressFrom(cart.attributes, "shipping_", false),
      buyerEmail := Lookup(cart.attributes, "shipping_email"))
  }

  /** The closing patch: the payload without its nonce, and `closed_at`. */
  function Close(cart: Cart, payload: map<string, string>, now: int): (c: Cart)
    ensures c.closedAt == Some(now) && !IsOpen(c)
    ensures c.token == cart.token && c.items == cart.items && c.grandTotal == cart.grandTotal
    ensures c.shippingRate == cart.shippingRate
    ensures c.attributes.Keys == cart.attributes.Keys + (payload.Keys - {"nonce"})
    ensures forall k :: k in payload && k != "nonce" ==> k in c.attributes && c.attributes[k] == payload[k]
    ensures forall k :: k in cart.attributes && k !in payload ==> k in c.attributes && c.attributes[k] == cart.attributes[k]
    ensures "nonce" in c.attributes <==> "nonce" in cart.attributes
  {
    cart.(attributes := cart.attributes + (payload - {"nonce"}), closedAt := Some(now))
  }

  /** `cartCheckoutHandler`, behind `pre_cart`. `saved` says whether
      `savePayment` succeeds and `closed` whether the closing patch does. */
  function CheckoutCart(s: Store, req: Request, drawn: Token, payload: map<string, string>, key: string,
                        gateway: ChargeRequest -> ChargeOutcome, paymentId: PaymentId,
                        saved: bool, closed: bool, now: int): (o: CheckoutOutcome)
    requires drawn !in s.carts && ValidPayload(payload)
    ensures o.charged.Some? <==> PreCart(s, req, drawn).Proceed?
    ensures o.charged.Some? ==> o.charged.value.amount == s.carts[PreCart(s, req, drawn).token].grandTotal
    ensures o.reply.Success? && o.charged.Some? ==> o.reply.value == TransactionBody(paymentId)
    ensures o.reply.Failure? ==> o.store == s
    ensures s.payments <= o.store.payments && |o.store.payments| <= |s.payments| + 1
  {
    match PreCart(s, req, drawn)
    case Takeover(s1, t) => CheckoutOutcome(s1, Success(CartBody(t)), None)
    case Proceed(t) =>
      var cart := s.carts[t];
      var charge := ChargeFor(cart, payload, key);
      match gateway(charge)
      case Threw(reason) => CheckoutOutcome(s, Failure(PaymentFailed(reason)), Some(charge))
      case Charged(txn) =>
        if !saved then CheckoutOutcome(s, Failure(PaymentNotSaved), Some(charge))
        else
          var s1 := s.(payments := s.payments + [Payment(paymentId, t, txn)]);
          var s2 := if closed then s1.(carts := s1.carts[t := Close(cart, payload, now)]) else s1;
          CheckoutOutcome(s2, Success(TransactionBody(paymentId)), Some(charge))
  }

  /** A successful checkout records one payment for the cart and closes it,
      so its token no longer names an active cart. */
  lemma CheckoutClosesCart(s: Store, req: Request, drawn: Token, payload: map<string, string>, key: string,
                           gateway: ChargeRequest -> ChargeOutcome, paymentId: PaymentId, now: int)
    requires drawn !in s.carts && ValidPayload(payload)
    requires PreCart(s, req, drawn).Proceed?
    requires var t := PreCart(s, req, drawn).token; gateway(ChargeFor(s.carts[t], payload, key)).Charged?
    ensures var t := PreCart(s, req, drawn).token;
      var txn := gateway(ChargeFor(s.carts[t], payload, key)).transaction;
      var o := CheckoutCart(s, req, drawn, payload, key, gateway, paymentId, true, true, now);
      && o.reply == Success(TransactionBody(paymentId))
      && o.store.payments == s.payments + [Payment(paymentId, t, txn)]
      && ActiveCart(o.store, ValidCartTokenFromRequest(req)).None?
      && o.store.carts[t].items == s.carts[t].items
  {
  }

  /** Once a checkout has closed the cart, repeating it with the same
      cookie never reaches the gateway: the request is taken over with a new
      empty cart and no payment is added. */
  lemma SecondCheckoutDoesNotCharge(s: Store, req: Request, drawn: Token, drawn2: Token,
                                    payload: map<string, string>, key: string,
                                    gateway: ChargeRequest -> ChargeOutcome, paymentId: PaymentId, now: int,
                                    saved2: bool, closed2: bool, now2: int)
    requires drawn !in s.carts && ValidPayload(payload)
    requires PreCart(s, req, drawn).Proceed?
    requires var t := PreCart(s, req, drawn).token; gateway(ChargeFor(s.carts[t], payload, key)).Charged?
    requires var o := CheckoutCart(s, req, drawn, payload, key, gateway, paymentId, true, true, now);
      drawn2 !in o.store.carts
    ensures var s' := CheckoutCart(s, req, drawn, payload, key, gateway, paymentId, true, true, now).store;
      var o2 := CheckoutCart(s', req, drawn2, payload, key, gateway, paymentId, saved2, closed2, now2);
      && o2.charged.None?
      && o2.reply == Success(CartBody(drawn2))
      && o2.store.payments == s'.payments
  {
    CheckoutClosesCart(s, req, drawn, payload, key, gateway, paymentId, now);
  }

  /** A charge that throws records no payment and leaves the cart open. */
  lemma DeclinedChargeChangesNothing(s: Store, req: Request, drawn: Token, payload: map<string, string>, key: string,
                                     gateway: ChargeRequest -> ChargeOutcome, paymentId: PaymentId,
                                     saved: bool, closed: bool, now: int)
    requires drawn !in s.carts && ValidPayload(payload)
    requires PreCart(s, req, drawn).Proceed?
    requires var t := PreCart(s, req, drawn).token; gateway(ChargeFor(s.carts[t], payload, key)).Threw?
    ensures var t := PreCart(s, req, drawn).token;
      var o := CheckoutCart(s, req, drawn, payload, key, gateway, paymentId, saved, closed, now);
      && o.store == s
      && o.reply == Failure(PaymentFailed(gateway(ChargeFor(s.carts[t], payload, key)).reason))
      && ActiveCart(o.store, ValidCartTokenFromRequest(req)) == Some(s.carts[t])
  {
  }

  /** A failed closing patch is swallowed: the buyer is told the checkout
      succeeded and the payment is recorded, but the cart stays open, so the
      same cookie can be charged again. */
  lemma FailedCloseLeavesCartOpen(s: Store, req: Request, drawn: Token, drawn2: Token,
                                  payload: map<string, string>, key: string,
                                  gateway: ChargeRequest -> ChargeOutcome, paymentId: PaymentId, now: int)
    requires drawn !in s.carts && ValidPayload(payload)
    requires PreCart(s, req, drawn).Proceed?
    requires var t := PreCart(s, req, drawn).token; gateway(ChargeFor(s.carts[t], payload, key)).Charged?
    requires drawn2 !in s.carts
    ensures var o := CheckoutCart(s, req, drawn, payload, key, gateway, paymentId, true, false, now);
      && o.reply == Success(TransactionBody(paymentId))
      && |o.store.payments| == |s.payments| + 1
      && CheckoutCart(o.store, req, drawn2, payload, key, gateway, paymentId, true, true, now).charged.Some?
  {
  }

  /** A charged payment that cannot be saved is reported as a failure and
      leaves the store as it was, although the gateway has charged the card. */
  lemma UnsavedPaymentLeavesCartOpen(s: Store, req: Request, drawn: Token, payload: map<string, string>, key: string,
                                     gateway: ChargeRequest -> ChargeOutcome, paymentId: PaymentId,
                                     closed: bool, now: int)
    requires drawn !in s.carts && ValidPayload(payload)
    requires PreCart(s, req, drawn).Proceed?
    requires var t := PreCart(s, req, drawn).token; gateway(ChargeFor(s.carts[t], payload, key)).Charged?
    ensures var o := CheckoutCart(s, req, drawn, payload, key, gateway, paymentId, false, closed, now);
      o.store == s && o.reply == Failure(PaymentNotSaved) && o.charged.Some?
  {
  }

  /** Checkout keeps the store well formed; in particular the card nonce is
      never written to a cart. */
  lemma CheckoutWf(s: Store, req: Request, drawn: Token, payload: map<string, string>, key: string,
                   gateway: ChargeRequest -> ChargeOutcome, paymentId: PaymentId,
                   saved: bool, closed: bool, now: int)
    requires Wf(s) && drawn !in s.carts && ValidPayload(payload)
    ensures Wf(CheckoutCart(s, req, drawn, payload, key, gateway, paymentId, saved, closed, now).store)
  {
    match PreCart(s, req, drawn)
    case Takeover(_, _) =>
      OpenCartWf(s, drawn);
    case Proceed(t) =>
      var c := Close(s.carts[t], payload, now);
      assert ItemIds(c.items) == ItemIds(s.carts[t].items);
      PutCartWf(s, t, c);
  }
}

=== FILE: email_service.dfy ===
/** The text builders of the shopping-cart email service: word-boundary
    truncation (`substringOnWords`), the shipping name and the one-line
    purchase description used as the order title. */
module ShoppingCartEmail {
  import opened Wrappers
  import opened Text

  const DefaultMaxLength: int := 25
  const Ellipsis: string := "..."

  // ---------------------------------------------------------- substringOnWords

  /** `parseInt(maxLen, 10) || 25`, with `maxLen` given by its string form
      (`None` is `undefined`, which parses to `NaN`). */
  function MaxLength(maxLen: Option<string>): (max: int)
    ensures max != 0
    ensures maxLen.None? ==> max == DefaultMaxLength
    ensures maxLen.Some? && ParseInt(maxLen.value).Some? && ParseInt(maxLen.value).value != 0
            ==> max == ParseInt(maxLen.value).value
    ensures maxLen.Some? && (ParseInt(maxLen.value).None? || ParseInt(maxLen.value).value == 0)
            ==> max == DefaultMaxLength
  {
    if maxLen.None? then DefaultMaxLength
    else
      match ParseInt(maxLen.value)
      case Some(n) => if n != 0 then n else DefaultMaxLength
      case None => DefaultMaxLength
  }

  /** The ending appended to a shortened string: `'...'` only when no `suffix`
      argument was passed (`None` is `undefined`; any passed value, `null`
      included, is `Some`, and its content is never used). */
  function Ending(suffix: Option<string>): (e: string)
    ensures e == Ellipsis <==> suffix.None?
    ensures e == "" <==> suffix.Some?
  {
    if suffix.None? then Ellipsis else ""
  }

  /** `cleanStr.length ? cleanStr.split(' ') : []`. */
  function Words(clean: string): (parts: seq<string>)
    ensures |clean| > 0 ==> Join(parts, ' ') == clean && |parts| >= 1
    ensures |clean| == 0 ==> parts == []
    ensures forall i :: 0 <= i < |parts| ==> ' ' !in parts[i]
  {
    if |clean| > 0 then
      SplitThenJoin(clean, ' ');
      Split(clean, ' ')
    else []
  }

  /** The `forEach` over the words from index `i` on, with `count` the length
      of the words kept so far joined by single spaces: returns how many
      leading words are kept, stopping at the first one that does not fit. */
  function FitFrom(parts: seq<string>, i: nat, count: int, max: int): (k: nat)
    requires i <= |parts|
    requires count == |Join(parts[..i], ' ')|
    requires i > 0 ==> count <= max
    ensures i <= k <= |parts|
    ensures k > 0 ==> |Join(parts[..k], ' ')| <= max
    ensures k < |parts| ==> |Join(parts[..k + 1], ' ')| > max
    decreases |parts| - i
  {
    if i == |parts| then i
    else
      var width := if i > 0 then |parts[i]| + 1 else |parts[i]|;
      JoinSnocLength(parts[..i], parts[i], ' ');
      assert parts[..i + 1] == parts[..i] + [parts[i]];
      if count + width <= max then FitFrom(parts, i + 1, count + width, max) else i
  }

  /** How many leading words of `clean` fit into `max` characters. */
  function WordCount(clean: string, max: int): (k: nat)
    ensures k <= |Words(clean)|
    ensures k > 0 ==> max >= 0 && |Join(Words(clean)[..k], ' ')| <= max
    ensures k < |Words(clean)| ==> |Join(Words(clean)[..k + 1], ' ')| > max
  {
    var parts := Words(clean);
    assert parts[..0] == [];
    FitFrom(parts, 0, 0, max)
  }

  /** JavaScript's `s.substring(0, n)`: `n` clamped into `[0, |s|]`. */
  function Head(s: string, n: int): (h: string)
    ensures h <= s
    ensures |h| == if n < 0 then 0 else if n > |s| then |s| else n
  {
    s[..if n < 0 then 0 else if n > |s| then |s| else n]
  }

  /** The part of `substringOnWords`' result before any ending: the whole
      trimmed string if it fits, else the leading words that fit joined by
      single spaces, else (when even the first word is too long) a hard cut. */
  function WordPrefix(clean: string, max: int): (body: string)
    ensures body <= clean
    ensures |body| <= if max < 0 then 0 else max
    ensures |clean| <= max ==> body == clean
    ensures var k := WordCount(clean, max); var parts := Words(clean);
      && (k > 0 ==> body == Join(parts[..k], ' '))
      && (0 < k < |parts| ==> |body| < |clean| && clean[|body|] == ' ' && |Join(parts[..k + 1], ' ')| > max)
      && (k == 0 && |clean| > 0 ==> |parts[0]| > max && body == Head(clean, max))
  {
    var parts := Words(clean);
    var k := WordCount(clean, max);
    if k == 0 then
      assert |clean| > 0 ==> |parts[0]| > max && |clean| > max by {
        if |clean| > 0 {
          FirstWordTooLong(clean, max);
        }
      }
      if |clean| > max then Head(clean, max) else clean
    else
      WordRunFacts(clean, max);
      Join(parts[..k], ' ')
  }

  /** When no word fits, the first word alone is longer than `max`. */
  lemma FirstWordTooLong(clean: string, max: int)
    requires WordCount(clean, max) == 0 && |clean| > 0
    ensures |Words(clean)[0]| > max && |clean| > max
  {
    var parts := Words(clean);
    assert parts[..1] == [parts[0]];
    LongerWordRun(parts, 1);
  }

  /** When some words fit, their join is a prefix of the input that ends at
      a space or at the end of the input. */
  lemma WordRunFacts(clean: string, max: int)
    requires WordCount(clean, max) > 0
    ensures var k := WordCount(clean, max); var parts := Words(clean);
      var body := Join(parts[..k], ' ');
      && body <= clean
      && (|clean| <= max ==> body == clean)
      && (k < |parts| ==> |body| < |clean| && clean[|body|] == ' ')
  {
    var k := WordCount(clean, max);
    var parts := Words(clean);
    var body := Join(parts[..k], ' ');
    if k < |parts| {
      JoinPrefix(parts, k, ' ');
      assert clean == body + [' '] + Join(parts[k..], ' ');
      LongerWordRun(parts, k + 1);
    } else {
      assert parts[..k] == parts;
    }
  }

  /** A run of leading words is never longer than the string they came from. */
  lemma LongerWordRun(parts: seq<string>, j: nat)
    requires 0 < j <= |parts|
    ensures |Join(parts[..j], ' ')| <= |Join(parts, ' ')|
  {
    if j < |parts| {
      JoinPrefix(parts, j, ' ');
    } else {
      assert parts[..j] == parts;
    }
  }

  /** Whether `substringOnWords` appends its ending: the result was shortened
      (and, for a negative `maxLen`, always). */
  predicate Shortened(clean: string, max: int) {
    |WordPrefix(clean, max)| < |clean| || max < 0
  }

  /** `substringOnWords(str, maxLen, suffix)`, branch for branch. */
  function SubstringOnWords(str: string, maxLen: Option<string>, suffix: Option<string>): (r: string)
    ensures var clean := Trim(str); var max := MaxLength(maxLen);
      r == WordPrefix(clean, max) + (if Shortened(clean, max) then Ending(suffix) else "")
  {
    var clean := Trim(str);
    var end := Ending(suffix);
    var max := MaxLength(maxLen);
    var parts := Words(clean);
    var k := WordCount(clean, max);
    if k == 0 then
      if |clean| > max then Head(clean, max) + end else clean
    else
      var done := Join(parts[..k], ' ');
      if |clean| > |done| then done + end else done
  }

  /** A trimmed input that fits is returned unchanged, with no ending. */
  lemma SubstringOnWordsFits(str: string, maxLen: Option<string>, suffix: Option<string>)
    requires |Trim(str)| <= MaxLength(maxLen)
    ensures SubstringOnWords(str, maxLen, suffix) == Trim(str)
  {
  }

  /** Ignoring its ending, the result is a prefix of the trimmed input no
      longer than `max`; the ending is `'...'` exactly when the input was
      shortened and no `suffix` was passed. */
  lemma SubstringOnWordsPrefix(str: string, maxLen: Option<string>, suffix: Option<string>)
    requires MaxLength(maxLen) > 0
    ensures var r := SubstringOnWords(str, maxLen, suffix);
      var clean := Trim(str);
      var max := MaxLength(maxLen);
      var shortened := |clean| > max;
      var body := if shortened && suffix.None? then r[..|r| - |Ellipsis|] else r;
      && (shortened && suffix.None? ==> |r| >= |Ellipsis| && r[|r| - |Ellipsis|..] == Ellipsis)
      && body <= clean && |body| <= max
      && (shortened <==> |body| < |clean|)
  {
    var clean := Trim(str);
    var max := MaxLength(maxLen);
    var w := WordPrefix(clean, max);
    var r := SubstringOnWords(str, maxLen, suffix);
    if |clean| > max {
      assert |w| < |clean|;
      if suffix.None? {
        assert r == w + Ellipsis;
        assert r[..|r| - |Ellipsis|] == w;
      }
    }
  }

  // ---------------------------------------------------------- getShippingName

  /** A name field counts when it is present and non-empty (truthy). */
  predicate Given(name: Option<string>) {
    name.Some? && name.value != ""
  }

  /** `getShippingName`: the truthy first and last names, in that order,
      joined by one space. */
  function ShippingName(first: Option<string>, last: Option<string>): (r: string)
    ensures !Given(first) && !Given(last) ==> r == ""
    ensures Given(first) && Given(last) ==> r == first.value + " " + last.value
    ensures Given(first) && !Given(last) ==> r == first.value
    ensures !Given(first) && Given(last) ==> r == last.value
  {
    var names := (if Given(first) then [first.value] else []) + (if Given(last) then [last.value] else []);
    assert Given(first) && Given(last) ==> Join(names, ' ') == first.value + " " + last.value by {
      if Given(first) && Given(last) {
        JoinCons(first.value, [last.value], ' ');
      }
    }
    Join(names, ' ')
  }

  /** For space-free names the shipping name splits back into the two names. */
  lemma ShippingNameSplits(first: string, last: string)
    requires first != "" && last != ""
    requires ' ' !in first && ' ' !in last
    ensures Split(ShippingName(Some(first), Some(last)), ' ') == [first, last]
  {
    JoinThenSplit([first, last], ' ');
  }

  // --------------------------------------------------- getPurchaseDescription

  function Quoted(s: string): string {
    "\"" + s + "\""
  }

  /** The order title truncated with the defaults of `substringOnWords`. */
  function ShortTitle(title: string): string {
    SubstringOnWords(title, None, None)
  }

  /** `getPurchaseDescription`. `items` is `cart_items` (`None` when it is not
      an array), each entry the product title when the item is an object whose
      `product` object has a `title`; `numItems` is the cart's `num_items`.
      Without a usable first title the template prints `null`. */
  function PurchaseDescription(items: Option<seq<Option<string>>>, numItems: int): (r: Option<string>)
    ensures items.None? <==> r.None?
    ensures items.Some? && |items.value| > 0 && items.value[0].Some? && numItems == 1
            ==> r == Some(Quoted(ShortTitle(items.value[0].value)))
    ensures items.Some? && |items.value| > 0 && items.value[0].Some? && numItems != 1
            ==> r == Some(Quoted(ShortTitle(items.value[0].value)) + MoreItems(numItems - 1))
    ensures items.Some? && (|items.value| == 0 || items.value[0].None?)
            ==> r == Some(Quoted("null") + " and 0 more items")
  {
    match items
    case None => None
    case Some(xs) =>
      assert MoreItems(0) == " and 0 more items" by {
        assert IntToString(0) == "0";
      }
      var first := if |xs| > 0 && xs[0].Some? then Some(ShortTitle(xs[0].value)) else None;
      var remaining := if first.Some? then numItems - 1 else 0;
      if first.Some? && remaining == 0 then Some(Quoted(first.value))
      else Some(Quoted(if first.Some? then first.value else "null") + MoreItems(remaining))
  }

  /** The `and N more item(s)` tail, singular only for exactly one. */
  function MoreItems(n: int): string {
    " and " + IntToString(n) + " more " + (if n == 1 then "item" else "items")
  }

  /** The truncated title is the trimmed title when that fits in 25
      characters, and never longer than 25 characters plus `'...'`. */
  lemma ShortTitleBound(title: string)
    ensures |Trim(title)| <= DefaultMaxLength ==> ShortTitle(title) == Trim(title)
    ensures |ShortTitle(title)| <= DefaultMaxLength + |Ellipsis|
  {
    var clean := Trim(title);
    assert MaxLength(None) == DefaultMaxLength;
    var w := WordPrefix(clean, DefaultMaxLength);
    assert |w| <= DefaultMaxLength;
  }

  /** A description whose first item has a title opens with that title,
      quoted and truncated. */
  lemma PurchaseDescriptionTitle(items: seq<Option<string>>, numItems: int)
    requires |items| > 0 && items[0].Some?
    ensures Quoted(ShortTitle(items[0].value)) <= PurchaseDescription(Some(items), numItems).value
  {
    PrefixOfConcat(Quoted(ShortTitle(items[0].value)), MoreItems(numItems - 1));
  }

  lemma PrefixOfConcat(a: string, b: string)
    ensures a <= a + b
  {
  }
}

=== FILE: helpers_service.dfy ===
/** The pure string helpers of the server's helper service: `makeArray`,
    `twoPointDecimal`, `stripTags` and `stripQuotes`. A JavaScript argument
    that may be `null`/`undefined` is an `Option`; every string is truthy
    except the empty one. */
module HelpersService {
  import opened Wrappers
  import opened Text

  // ---------------------------------------------------------------- makeArray

  /** A JavaScript value that is either an array or anything else. */
  datatype Value<T> = Array(elements: seq<T>) | Scalar(item: T)

  /** `makeArray`: arrays pass through, anything else becomes a one-element array. */
  function MakeArray<T>(v: Value<T>): (r: seq<T>)
    ensures v.Array? ==> r == v.elements
    ensures v.Scalar? ==> |r| == 1 && r[0] == v.item
  {
    match v
    case Array(xs) => xs
    case Scalar(x) => [x]
  }

  /** Wrapping the result of `makeArray` again changes nothing. */
  lemma MakeArrayIdempotent<T>(v: Value<T>)
    ensures MakeArray(Array(MakeArray(v))) == MakeArray(v)
    ensures |MakeArray(v)| >= 1 || v.Array?
  {
  }

  // ---------------------------------------------------------- twoPointDecimal

  /** A match of `^-?\d+(?:\.\d{0,2})?`: an optional minus, at least one
      digit, and optionally a point followed by at most two digits. */
  predicate IsTwoPointDecimal(r: string) {
    var unsigned := if |r| > 0 && r[0] == '-' then r[1..] else r;
    var whole := DigitPrefix(unsigned);
    var tail := unsigned[|whole|..];
    && |whole| >= 1
    && (|tail| == 0 || (tail[0] == '.' && |tail| <= 3 && AllDigits(tail[1..])))
  }

  /** The optional leading minus sign of `s`. */
  function SignOf(s: string): (sign: string)
    ensures sign <= s && (sign == "" || sign == "-")
  {
    if |s| > 0 && s[0] == '-' then "-" else ""
  }

  /** The optional `(?:\.\d{0,2})` group at the front of `after`: a point and
      as many as two of the digits that follow it. */
  function FractionOf(after: string): (fraction: string)
    ensures fraction <= after
    ensures fraction == "" || (fraction[0] == '.' && |fraction| <= 3 && AllDigits(fraction[1..]))
    ensures fraction == "" <==> (|after| == 0 || after[0] != '.')
    ensures fraction != "" && |fraction| < 3 && |fraction| < |after| ==> !IsDigit(after[|fraction|])
  {
    if |after| > 0 && after[0] == '.' then
      var decimals := DigitPrefix(after[1..]);
      var kept := decimals[..if |decimals| < 2 then |decimals| else 2];
      assert kept <= after[1..];
      assert |kept| < 2 ==> kept == decimals;
      assert "." + kept <= after by {
        assert after == "." + after[1..];
      }
      "." + kept
    else ""
  }

  /** `twoPointDecimal` on the string form of its argument: the leading match
      of the pattern above, so digits after the second decimal place are cut
      off rather than rounded. `None` is the failed match, on which the source
      throws (it indexes `null`). */
  function TwoPointDecimal(s: string): (r: Option<string>)
    ensures r.Some? ==> r.value <= s && IsTwoPointDecimal(r.value)
    ensures r.None? <==> |DigitPrefix(s[|SignOf(s)|..])| == 0
    ensures r.Some? ==> forall p :: r.value < p <= s ==> !IsTwoPointDecimal(p)
    ensures r.None? ==> forall p :: p <= s ==> !IsTwoPointDecimal(p)
  {
    var sign := SignOf(s);
    var unsigned := s[|sign|..];
    var whole := DigitPrefix(unsigned);
    if |whole| == 0 then
      NoMatchAnywhere(s);
      None
    else
      var fraction := FractionOf(unsigned[|whole|..]);
      TwoPointDecimalShape(sign, whole, fraction);
      PrefixOfParts(s, sign, whole, fraction);
      LongestMatch(s, sign, whole, fraction);
      Some(sign + whole + fraction)
  }

  /** The digit prefix of `u` is also that of any prefix of `u` long enough
      to hold it. */
  lemma {:induction false} DigitPrefixOfLongerPrefix(u: string, v: string)
    requires v <= u && |DigitPrefix(u)| <= |v|
    ensures DigitPrefix(v) == DigitPrefix(u)
    decreases |v|
  {
    if |u| > 0 && IsDigit(u[0]) {
      assert v[0] == u[0];
      assert v[1..] <= u[1..];
      DigitPrefixOfLongerPrefix(u[1..], v[1..]);
    } else if |v| > 0 {
      assert v[0] == u[0];
    }
  }

  /** The match is greedy: no prefix of `s` longer than `sign whole fraction`
      has the shape of the pattern. */
  lemma LongestMatch(s: string, sign: string, whole: string, fraction: string)
    requires sign == SignOf(s) && whole == DigitPrefix(s[|sign|..]) && |whole| >= 1
    requires fraction == FractionOf(s[|sign|..][|whole|..])
    ensures forall p :: sign + whole + fraction < p <= s ==> !IsTwoPointDecimal(p)
  {
    forall p | sign + whole + fraction < p <= s
      ensures !IsTwoPointDecimal(p)
    {
      LongerThanMatch(s, sign, whole, fraction, p);
    }
  }

  lemma LongerThanMatch(s: string, sign: string, whole: string, fraction: string, p: string)
    requires sign == SignOf(s) && whole == DigitPrefix(s[|sign|..]) && |whole| >= 1
    requires fraction == FractionOf(s[|sign|..][|whole|..])
    requires sign + whole + fraction < p <= s
    ensures !IsTwoPointDecimal(p)
  {
    var u := s[|sign|..];
    assert p[0] == s[0];
    var up := p[|sign|..];
    assert up <= u;
    DigitPrefixOfLongerPrefix(u, up);
    TailBeyondFraction(u[|whole|..], fraction, up[|whole|..]);
  }

  /** Whatever follows a fraction group in `after` cannot extend it. */
  lemma TailBeyondFraction(after: string, fraction: string, tail: string)
    requires fraction == FractionOf(after)
    requires tail <= after && |tail| > |fraction|
    ensures !(tail[0] == '.' && |tail| <= 3 && AllDigits(tail[1..]))
  {
    if fraction != "" && |fraction| < 3 {
      assert tail[1..][|fraction| - 1] == after[|fraction|];
    }
  }

  /** Without a digit after the optional minus, no prefix of `s` matches. */
  lemma NoMatchAnywhere(s: string)
    requires |DigitPrefix(s[|SignOf(s)|..])| == 0
    ensures forall p :: p <= s ==> !IsTwoPointDecimal(p)
  {
    forall p | p <= s
      ensures !IsTwoPointDecimal(p)
    {
      if |p| > 0 {
        assert p[0] == s[0];
        var n := |SignOf(s)|;
        if n < |p| {
          assert p[n] == s[n];
        }
      }
    }
  }

  lemma PrefixOfParts(s: string, sign: string, whole: string, fraction: string)
    requires sign <= s && whole <= s[|sign|..] && fraction <= s[|sign|..][|whole|..]
    ensures sign + whole + fraction <= s
  {
    var u := s[|sign|..];
    assert s == sign + u;
    assert u == whole + u[|whole|..];
  }

  lemma TwoPointDecimalShape(sign: string, whole: string, fraction: string)
    requires sign == "" || sign == "-"
    requires |whole| >= 1 && AllDigits(whole)
    requires fraction == "" || (fraction[0] == '.' && |fraction| <= 3 && AllDigits(fraction[1..]))
    ensures IsTwoPointDecimal(sign + whole + fraction)
  {
    var r := sign + whole + fraction;
    assert r[|sign|..] == whole + fraction;
    DigitPrefixStopsAtPoint(whole, fraction);
    assert (whole + fraction)[|whole|..] == fraction;
  }

  lemma {:induction false} DigitPrefixStopsAtPoint(whole: string, fraction: string)
    requires AllDigits(whole)
    requires fraction == "" || fraction[0] == '.'
    ensures DigitPrefix(whole + fraction) == whole
    decreases |whole|
  {
    if |whole| == 0 {
      assert whole + fraction == fraction;
    } else {
      assert (whole + fraction)[1..] == whole[1..] + fraction;
      DigitPrefixStopsAtPoint(whole[1..], fraction);
    }
  }

  /** Splits `sign whole tail` back into its parts. */
  lemma TwoPointDecimalParts(sign: string, whole: string, tail: string)
    requires sign == "" || sign == "-"
    requires |whole| >= 1 && AllDigits(whole)
    requires tail == "" || tail[0] == '.'
    ensures var s := sign + whole + tail;
      SignOf(s) == sign && s[|sign|..] == whole + tail
      && DigitPrefix(s[|sign|..]) == whole && s[|sign|..][|whole|..] == tail
  {
    var s := sign + whole + tail;
    assert s[|sign|..] == whole + tail;
    DigitPrefixStopsAtPoint(whole, tail);
    assert (whole + tail)[|whole|..] == tail;
  }

  /** The result on a string assembled from its parts. */
  lemma TwoPointDecimalOfParts(sign: string, whole: string, tail: string)
    requires sign == "" || sign == "-"
    requires |whole| >= 1 && AllDigits(whole)
    requires tail == "" || tail[0] == '.'
    ensures TwoPointDecimal(sign + whole + tail) == Some(sign + whole + FractionOf(tail))
  {
    TwoPointDecimalParts(sign, whole, tail);
  }

  lemma FractionOfDecimals(decimals: string)
    requires AllDigits(decimals)
    ensures FractionOf("." + decimals) == "." + decimals[..if |decimals| < 2 then |decimals| else 2]
  {
    var tail := "." + decimals;
    assert tail[1..] == decimals;
    DigitPrefixOfDigits(decimals);
  }

  /** On a decimal string `sign whole . decimals` the result keeps the sign,
      every digit of the whole part and the first two decimals, and nothing
      else: truncation, never rounding. */
  lemma TwoPointDecimalTruncates(sign: string, whole: string, decimals: string)
    requires sign == "" || sign == "-"
    requires |whole| >= 1 && AllDigits(whole) && AllDigits(decimals)
    ensures TwoPointDecimal(sign + whole + "." + decimals)
         == Some(sign + whole + "." + decimals[..if |decimals| < 2 then |decimals| else 2])
  {
    var head := sign + whole;
    var tail := "." + decimals;
    var kept := decimals[..if |decimals| < 2 then |decimals| else 2];
    assert head + "." + decimals == head + tail;
    assert head + "." + kept == head + ("." + kept);
    TwoPointDecimalOfParts(sign, whole, tail);
    FractionOfDecimals(decimals);
  }

  /** Applying `twoPointDecimal` to its own output changes nothing. */
  lemma TwoPointDecimalIdempotent(s: string)
    requires TwoPointDecimal(s).Some?
    ensures TwoPointDecimal(TwoPointDecimal(s).value) == TwoPointDecimal(s)
  {
    var sign := SignOf(s);
    var whole := DigitPrefix(s[|sign|..]);
    var fraction := FractionOf(s[|sign|..][|whole|..]);
    assert TwoPointDecimal(s) == Some(sign + whole + fraction);
    TwoPointDecimalOfParts(sign, whole, fraction);
    FractionOfFraction(fraction);
  }

  /** A fraction group is its own fraction group. */
  lemma FractionOfFraction(fraction: string)
    requires fraction == "" || (fraction[0] == '.' && |fraction| <= 3 && AllDigits(fraction[1..]))
    ensures FractionOf(fraction) == fraction
  {
    if fraction != "" {
      var decimals := fraction[1..];
      assert fraction == "." + decimals;
      FractionOfDecimals(decimals);
      assert decimals[..|decimals|] == decimals;
    }
  }

  // ---------------------------------------------------------------- stripTags

  /** Index of the first `>` at or after `from`, if any. */
  function NextClose(s: string, from: nat): (j: Option<nat>)
    requires from <= |s|
    ensures j.Some? ==> from <= j.value < |s| && s[j.value] == '>'
    ensures j.Some? ==> forall i :: from <= i < j.value ==> s[i] != '>'
    ensures j.None? ==> forall i :: from <= i < |s| ==> s[i] != '>'
    decreases |s| - from
  {
    if from == |s| then None
    else if s[from] == '>' then Some(from)
    else NextClose(s, from + 1)
  }

  /** A tag of `/(<([^>]+)>)/` starts at the front of `s`: a `<`, at least one
      character other than `>`, then a `>`. */
  predicate TagAtFront(s: string) {
    |s| > 0 && s[0] == '<' && var j := NextClose(s, 1); j.Some? && j.value >= 2
  }

  /** The global `replace` of that pattern by the empty string, scanning left to
      right: a tag at the front is dropped whole, otherwise one character is
      kept and the scan moves on. */
  function RemoveTags(s: string): (r: string)
    ensures IsSubsequence(r, s)
    ensures '<' !in s ==> r == s
    decreases |s|
  {
    if |s| == 0 then ""
    else if TagAtFront(s) then
      var j := NextClose(s, 1).value;
      var r := RemoveTags(s[j + 1..]);
      SubsequenceDrop(r, s, j + 1);
      r
    else
      var r := RemoveTags(s[1..]);
      assert ([s[0]] + r)[1..] == r;
      [s[0]] + r
  }

  lemma {:induction false} SubsequenceDrop(a: string, b: string, k: nat)
    requires k <= |b|
    requires IsSubsequence(a, b[k..])
    ensures IsSubsequence(a, b)
    decreases k
  {
    if k > 0 {
      if |a| > 0 {
        assert b[k - 1..][1..] == b[k..];
        if a[0] == b[k - 1] {
          SubsequenceShrinkFront(a, b[k..]);
        }
      }
      SubsequenceDropOne(a, b[k - 1..]);
      SubsequenceDrop(a, b, k - 1);
    }
  }

  /** Putting a character in front of the original keeps a subsequence one. */
  lemma {:induction false} SubsequenceDropOne(a: string, b: string)
    requires |b| > 0 && IsSubsequence(a, b[1..])
    ensures IsSubsequence(a, b)
    decreases |a| + |b|, 1
  {
    if |a| > 0 && a[0] == b[0] {
      SubsequenceShrinkFront(a, b[1..]);
    }
  }

  /** Dropping the first character of a subsequence keeps it a subsequence. */
  lemma {:induction false} SubsequenceShrinkFront(a: string, b: string)
    requires |a| > 0 && IsSubsequence(a, b)
    ensures IsSubsequence(a[1..], b)
    decreases |a| + |b|, 0
  {
    if a[0] == b[0] {
      if |b| > 1 {
        SubsequenceDropOne(a[1..], b);
      }
    } else {
      SubsequenceShrinkFront(a, b[1..]);
      SubsequenceDropOne(a[1..], b);
    }
  }

  /** No tag of the pattern occurs anywhere in `s`. */
  predicate TagFree(s: string) {
    forall i :: 0 <= i < |s| ==> !TagAtFront(s[i..])
  }

  /** `stripTags`: falsy input (absent or empty) comes back as it is. */
  function StripTags(text: Option<string>): (r: Option<string>)
    ensures text.None? ==> r.None?
    ensures text.Some? ==> r.Some? && IsSubsequence(r.value, text.value) && TagFree(r.value)
    ensures text.Some? && '<' !in text.value ==> r == text
  {
    if text.None? || text.value == "" then text
    else
      RemoveTagsTagFree(text.value);
      Some(RemoveTags(text.value))
  }

  /** What `RemoveTags` leaves contains no tag. */
  lemma {:induction false} RemoveTagsTagFree(s: string)
    ensures TagFree(RemoveTags(s))
    decreases |s|
  {
    if |s| > 0 {
      if TagAtFront(s) {
        var j := NextClose(s, 1).value;
        RemoveTagsTagFree(s[j + 1..]);
      } else {
        var rest := RemoveTags(s[1..]);
        RemoveTagsTagFree(s[1..]);
        var r := [s[0]] + rest;
        forall i | 0 <= i < |r|
          ensures !TagAtFront(r[i..])
        {
          if i == 0 {
            KeptOpenerNotTag(s, rest);
          } else {
            assert r[i..] == rest[i - 1..];
          }
        }
      }
    }
  }

  /** A `<` that the scan keeps does not start a tag of the output either. */
  lemma KeptOpenerNotTag(s: string, rest: string)
    requires |s| > 0 && !TagAtFront(s)
    requires rest == RemoveTags(s[1..])
    ensures !TagAtFront([s[0]] + rest)
  {
    var r := [s[0]] + rest;
    if s[0] == '<' && |r| > 1 {
      var j := NextClose(s, 1);
      if j.None? {
        SubsequenceChars(rest, s[1..], '>');
        NoCloseAfter(r);
      } else {
        assert j.value == 1;
        assert s[1] == '>';
        assert !TagAtFront(s[1..]);
        assert rest[0] == '>';
        assert NextClose(r, 1) == Some(1);
      }
    }
  }

  lemma NoCloseAfter(r: string)
    requires |r| > 0 && '>' !in r[1..]
    ensures NextClose(r, 1).None?
  {
  }

  /** A string with no tag is left unchanged, so `stripTags` is idempotent. */
  lemma {:induction false} RemoveTagsOfTagFree(s: string)
    requires TagFree(s)
    ensures RemoveTags(s) == s
    decreases |s|
  {
    if |s| > 0 {
      assert !TagAtFront(s[0..]) && s[0..] == s;
      assert TagFree(s[1..]) by {
        forall i | 0 <= i < |s[1..]| ensures !TagAtFront(s[1..][i..]) {
          assert s[1..][i..] == s[i + 1..];
        }
      }
      RemoveTagsOfTagFree(s[1..]);
    }
  }

  lemma StripTagsIdempotent(text: Option<string>)
    ensures StripTags(StripTags(text)) == StripTags(text)
  {
    if text.Some? && text.value != "" {
      RemoveTagsTagFree(text.value);
      RemoveTagsOfTagFree(RemoveTags(text.value));
    }
  }

  /** Text without `<` passes through the scan unchanged, whatever follows. */
  lemma {:induction false} RemoveTagsKeepsPlain(x: string, k: nat)
    requires k <= |x|
    requires forall i :: 0 <= i < k ==> x[i] != '<'
    ensures RemoveTags(x) == x[..k] + RemoveTags(x[k..])
    decreases k
  {
    if k == 0 {
      assert x[k..] == x;
    } else {
      var p := x[1..][..k - 1];
      var r := RemoveTags(x[k..]);
      var q := RemoveTags(x[1..]);
      RemoveTagsStep(x);
      RemoveTagsKeepsPlain(x[1..], k - 1);
      assert x[1..][k - 1..] == x[k..];
      assert q == p + r;
      PrefixCons(x, k);
      ConsThenAppend(RemoveTags(x), x[..k], x[0], p, q, r);
    }
  }

  /** A plain prefix `a` (no `<`) is kept in front of the scan of the rest. */
  lemma RemoveTagsPlainPrefix(a: string, s: string)
    requires '<' !in a
    ensures RemoveTags(a + s) == a + RemoveTags(s)
  {
    RemoveTagsKeepsPlain(a + s, |a|);
    assert (a + s)[..|a|] == a && (a + s)[|a|..] == s;
  }

  /** A non-empty prefix is its first character followed by the prefix of the tail. */
  lemma PrefixCons(x: string, k: nat)
    requires 1 <= k <= |x|
    ensures x[..k] == [x[0]] + x[1..][..k - 1]
  {
    assert forall i :: 0 <= i < k ==> x[..k][i] == ([x[0]] + x[1..][..k - 1])[i];
  }

  /** Keeping one character and then the rest of a plain run keeps the whole run. */
  lemma ConsThenAppend(whole: string, run: string, c: char, p: string, q: string, r: string)
    requires whole == [c] + q && q == p + r && run == [c] + p
    ensures whole == run + r
  {
    ConcatAssoc([c], p, r);
  }

  /** Concatenation is associative. */
  lemma ConcatAssoc<T>(a: seq<T>, b: seq<T>, c: seq<T>)
    ensures a + (b + c) == (a + b) + c
  {
  }

  /** A character other than `<` is kept and the scan moves on. */
  lemma RemoveTagsStep(x: string)
    requires |x| > 0 && x[0] != '<'
    ensures RemoveTags(x) == [x[0]] + RemoveTags(x[1..])
  {
  }

  /** The first `>` after a `<` closes the tag. */
  lemma FirstClose(x: string, k: nat)
    requires 1 <= k < |x| && x[k] == '>'
    requires forall i :: 1 <= i < k ==> x[i] != '>'
    ensures NextClose(x, 1) == Some(k)
  {
    var j := NextClose(x, 1);
    assert j.Some? ==> j.value <= k;
    assert j != None;
  }

  /** A tag `<inner>` at the front is dropped whole. */
  lemma RemoveTagsDropsTag(inner: string, s: string)
    requires |inner| > 0 && '>' !in inner
    ensures RemoveTags(("<" + inner + ">") + s) == RemoveTags(s)
  {
    var x := ("<" + inner + ">") + s;
    var k := |inner| + 1;
    assert x[k] == '>';
    assert forall i :: 1 <= i < k ==> x[i] == inner[i - 1];
    FirstClose(x, k);
    assert TagAtFront(x);
    assert x[k + 1..] == s;
  }

  /** `stripTags` removes a tag and keeps the text on both sides of it:
      `"a<b>c"` becomes `"ac"`. */
  lemma StripTagsKeepsText(before: string, inner: string, after: string)
    requires '<' !in before && '<' !in after
    requires |inner| > 0 && '>' !in inner
    ensures StripTags(Some(before + (("<" + inner + ">") + after))) == Some(before + after)
  {
    var tagged := ("<" + inner + ">") + after;
    RemoveTagsPlainPrefix(before, tagged);
    RemoveTagsDropsTag(inner, after);
    assert |before + tagged| > 0;
  }

  // -------------------------------------------------------------- stripQuotes

  predicate IsQuote(c: char) { c == '"' || c == '\'' }

  function QuoteCount(s: string): nat {
    Count(s, '"') + Count(s, '\'')
  }

  /** The global `replace` of `/["']/` by the empty string. */
  function RemoveQuotes(s: string): (r: string)
    ensures IsSubsequence(r, s)
    ensures forall i :: 0 <= i < |r| ==> !IsQuote(r[i])
    ensures |r| == |s| - QuoteCount(s)
  {
    if |s| == 0 then ""
    else
      var rest := RemoveQuotes(s[1..]);
      SubsequenceDropOne(rest, s);
      if IsQuote(s[0]) then rest
      else
        assert ([s[0]] + rest)[1..] == rest;
        [s[0]] + rest
  }

  /** `stripQuotes`: every `"` and `'` removed, all other characters kept in
      order; falsy input (absent or empty) comes back as it is. */
  function StripQuotes(text: Option<string>): (r: Option<string>)
    ensures text.None? ==> r.None?
    ensures text.Some? ==> r.Some? && IsSubsequence(r.value, text.value)
    ensures text.Some? ==> forall i :: 0 <= i < |r.value| ==> !IsQuote(r.value[i])
    ensures text.Some? ==> |r.value| == |text.value| - QuoteCount(text.value)
  {
    if text.None? || text.value == "" then text else Some(RemoveQuotes(text.value))
  }

  /** A quote-free string is left unchanged, so `stripQuotes` is idempotent. */
  lemma {:induction false} RemoveQuotesOfQuoteFree(s: string)
    requires forall i :: 0 <= i < |s| ==> !IsQuote(s[i])
    ensures RemoveQuotes(s) == s
    decreases |s|
  {
    if |s| > 0 {
      RemoveQuotesOfQuoteFree(s[1..]);
    }
  }

  lemma StripQuotesIdempotent(text: Option<string>)
    ensures StripQuotes(StripQuotes(text)) == StripQuotes(text)
  {
    if text.Some? && text.value != "" {
      RemoveQuotesOfQuoteFree(RemoveQuotes(text.value));
    }
  }
}

=== FILE: product.dfy ===
/** The product record as the cart sees it, and its `display_price` virtual.
    Prices are integer cents; a `None` price is a `null` column. */
module ProductModel {
  import opened Wrappers

  type ProductId = string

  /** A catalog product: its identity, title, prices, sale flag and its
      weight in hundredths of an ounce (`weight_oz`, `null` read as 0). */
  datatype Product = Product(
    id: ProductId,
    title: string,
    basePrice: Option<int>,
    salePrice: Option<int>,
    isOnSale: bool,
    weight: nat)

  /** `this.get('sale_price') || 0`. */
  function SalePrice(p: Product): int {
    p.salePrice.GetOr(0)
  }

  /** `this.get('base_price') || 0`. */
  function BasePrice(p: Product): int {
    p.basePrice.GetOr(0)
  }

  /** `display_price`: the sale price while the product is on sale and has a
      non-zero sale price, else a non-zero base price, else 0. */
  function DisplayPrice(p: Product): (price: int)
    ensures price == SalePrice(p) || price == BasePrice(p) || price == 0
    ensures p.isOnSale && SalePrice(p) != 0 ==> price == SalePrice(p)
    ensures !(p.isOnSale && SalePrice(p) != 0) && BasePrice(p) != 0 ==> price == BasePrice(p)
    ensures !(p.isOnSale && SalePrice(p) != 0) && BasePrice(p) == 0 ==> price == 0
  {
    var price := 0;
    var salePrice := SalePrice(p);
    var basePrice := BasePrice(p);
    if p.isOnSale && salePrice != 0 then salePrice
    else if basePrice != 0 then basePrice
    else price
  }

  /** The final `else 0` never decides anything on its own: whenever the
      sale price does not apply, the display price is the base price (0 when
      it is missing). In particular a product on sale with a zero or missing
      sale price shows its base price. */
  lemma DisplayPriceFallsBackToBase(p: Product)
    requires !(p.isOnSale && SalePrice(p) != 0)
    ensures DisplayPrice(p) == BasePrice(p)
  {
  }
}

=== FILE: query_helper.dfy ===
/** `queryHelper` and the paging part of `fetchPage`: turning the parsed query
    string of a list request into ordering, filters and paging. */
module QueryHelper {
  import opened Wrappers
  import opened Text

  /** A value of the query string parsed with `arrayFormat: 'bracket'`:
      `k=v` is a string, `k[]=a&k[]=b` an array of strings, and a bare `k`
      is `null`. */
  datatype QueryValue = Str(s: string) | List(items: seq<string>) | Null

  type Query = map<string, QueryValue>

  /** JavaScript truthiness of a parsed value: arrays are always truthy. */
  predicate Truthy(v: QueryValue) {
    match v
    case Str(s) => s != ""
    case List(_) => true
    case Null => false
  }

  /** `parsed[key]` is present and truthy. */
  predicate Given(q: Query, key: string) {
    key in q && Truthy(q[key])
  }

  /** The text `parseInt` reads from a value: an array reads as its
      elements joined by commas. */
  function AsText(v: QueryValue): string {
    match v
    case Str(s) => s
    case List(xs) => Join(xs, ',')
    case Null => "null"
  }

  /** `parseInt(v, 10) || null`: a parsed number, unless it is `NaN` or 0. */
  function IntOrNull(v: QueryValue): (r: Option<int>)
    ensures r.Some? ==> r.value != 0 && ParseInt(AsText(v)) == r
    ensures r.None? ==> ParseInt(AsText(v)) == None || ParseInt(AsText(v)) == Some(0)
  {
    match ParseInt(AsText(v))
    case Some(n) => if n != 0 then Some(n) else None
    case None => None
  }

  /** What `parseInt(parsed[key], 10) || null` behind `if(parsed[key])`
      leaves in `o`: the parsed number when the key is given and parses to
      a number other than 0, and `null` otherwise. */
  predicate ReadsNumber(q: Query, key: string, o: Option<int>) {
    && (o.Some? <==> Given(q, key) && ParseInt(AsText(q[key])).Some? && ParseInt(AsText(q[key])).value != 0)
    && (o.Some? ==> o == ParseInt(AsText(q[key])))
  }

  /** A truthy value copied as is into `o`, or `null`. */
  predicate CopiesTruthy(q: Query, key: string, o: Option<QueryValue>) {
    && (o.Some? <==> Given(q, key))
    && (o.Some? ==> o.value == q[key])
  }

  /** A numeric option: set only when the key is given, and never to 0. */
  function NumberOption(q: Query, key: string): (r: Option<int>)
    ensures ReadsNumber(q, key, r)
  {
    if Given(q, key) then IntOrNull(q[key]) else None
  }

  /** The comma-separated fields of one `andWhere[]` entry, each trimmed. */
  function Fields(entry: string): (fs: seq<string>)
    ensures |fs| == Count(entry, ',') + 1
  {
    var parts := Split(entry, ',');
    SplitCount(entry, ',');
    seq(|parts|, i requires 0 <= i < |parts| => Trim(parts[i]))
  }

  /** Whether every string in `fs` is already trimmed. */
  predicate AllTrimmed(fs: seq<string>) {
    forall j :: 0 <= j < |fs| ==> Trim(fs[j]) == fs[j]
  }

  lemma FieldsTrimmed(entry: string)
    ensures AllTrimmed(Fields(entry))
  {
    var fs := Fields(entry);
    forall j | 0 <= j < |fs|
      ensures Trim(fs[j]) == fs[j]
    {
      TrimIdempotent(Split(entry, ',')[j]);
    }
  }

  /** Fields written out with commas between them come back as they were,
      provided none holds a comma or surrounding whitespace: `Fields` reads
      `"a,=,3"` as `["a", "=", "3"]`. */
  lemma FieldsOfJoin(fs: seq<string>)
    requires |fs| >= 1
    requires forall i :: 0 <= i < |fs| ==> ',' !in fs[i] && Trim(fs[i]) == fs[i]
    ensures Fields(Join(fs, ',')) == fs
  {
    JoinThenSplit(fs, ',');
  }

  /** The `andWhere[]` entries that split into exactly three fields, each as
      its list of trimmed fields, in their original order. */
  function KeepTriples(entries: seq<string>): (kept: seq<seq<string>>)
    ensures |kept| <= |entries|
    ensures forall i :: 0 <= i < |kept| ==> |kept[i]| == 3 && AllTrimmed(kept[i])
  {
    if |entries| == 0 then []
    else
      var fs := Fields(entries[0]);
      FieldsTrimmed(entries[0]);
      var rest := KeepTriples(entries[1..]);
      if |fs| == 3 then [fs] + rest else rest
  }

  /** An independent description of the filters: the entries holding exactly
      two commas, in order. */
  function TwoCommaEntries(entries: seq<string>): seq<string> {
    if |entries| == 0 then []
    else if Count(entries[0], ',') == 2 then [entries[0]] + TwoCommaEntries(entries[1..])
    else TwoCommaEntries(entries[1..])
  }

  /** An entry is kept exactly when it holds two commas, and is kept as its
      three trimmed fields. */
  lemma {:induction false} KeepTriplesByCommas(entries: seq<string>)
    ensures |KeepTriples(entries)| == |TwoCommaEntries(entries)|
    ensures forall i :: 0 <= i < |KeepTriples(entries)| ==>
      KeepTriples(entries)[i] == Fields(TwoCommaEntries(entries)[i])
  {
    if |entries| > 0 {
      KeepTriplesByCommas(entries[1..]);
    }
  }

  /** `response.andWhere`: only with a truthy `where` and an array
      `andWhere`, and only when some entry survives. */
  function AndWhere(q: Query): (r: Option<seq<seq<string>>>)
    ensures r.Some? ==> Given(q, "where") && "andWhere" in q && q["andWhere"].List?
    ensures r.Some? ==> |r.value| > 0 && r.value == KeepTriples(q["andWhere"].items)
    ensures Given(q, "where") && "andWhere" in q && q["andWhere"].List? && |KeepTriples(q["andWhere"].items)| > 0
      ==> r == Some(KeepTriples(q["andWhere"].items))
  {
    if Given(q, "where") && "andWhere" in q && q["andWhere"].List? then
      var kept := KeepTriples(q["andWhere"].items);
      if |kept| > 0 then Some(kept) else None
    else None
  }

  datatype QueryData = QueryData(
    pageSize: Option<int>,
    page: Option<int>,
    orderBy: Option<QueryValue>,
    orderDir: string,
    where: Option<QueryValue>,
    whereRaw: Option<QueryValue>,
    andWhere: Option<seq<seq<string>>>,
    limit: Option<int>)

  /** A truthy value copied as is, or `null`. */
  function Copied(q: Query, key: string): (r: Option<QueryValue>)
    ensures r.Some? <==> Given(q, key)
    ensures r.Some? ==> r.value == q[key]
  {
    if Given(q, key) then Some(q[key]) else None
  }

  /** `queryHelper(request)` for the parsed query `q`. */
  function Build(q: Query): (d: QueryData)
    ensures d.orderDir == "DESC" || d.orderDir == "ASC"
    ensures d.orderDir == "ASC" <==> "orderDir" in q && q["orderDir"] == Str("ASC")
    ensures ReadsNumber(q, "pageSize", d.pageSize)
    ensures ReadsNumber(q, "page", d.page)
    ensures ReadsNumber(q, "limit", d.limit)
    ensures CopiesTruthy(q, "orderBy", d.orderBy)
    ensures CopiesTruthy(q, "where", d.where)
    ensures CopiesTruthy(q, "whereRaw", d.whereRaw)
    ensures d.andWhere == AndWhere(q)
    ensures d.andWhere.Some? ==> d.where.Some?
  {
    var dir := if "orderDir" in q && (q["orderDir"] == Str("DESC") || q["orderDir"] == Str("ASC"))
      then q["orderDir"].s else "DESC";
    QueryData(
      pageSize := NumberOption(q, "pageSize"),
      page := NumberOption(q, "page"),
      orderBy := Copied(q, "orderBy"),
      orderDir := dir,
      where := Copied(q, "where"),
      whereRaw := Copied(q, "whereRaw"),
      andWhere := AndWhere(q),
      limit := NumberOption(q, "limit"))
  }

  /** A query string with no keys asks for nothing but the descending default. */
  lemma EmptyQueryDefaults()
    ensures Build(map[]) == QueryData(None, None, None, "DESC", None, None, None, None)
  {
  }

  /** How `fetchPage` pages: by a limit, or by page size and page number. */
  datatype Paging = ByLimit(limit: int) | ByPage(pageSize: int, page: int)

  datatype PageConfig = PageConfig(paging: Paging, withRelated: Option<seq<string>>)

  /** The `config` object `fetchPage` builds; `withRelated` is `None` when the
      caller's value is not an array. */
  function FetchPageConfig(d: QueryData, withRelated: Option<seq<string>>): (c: PageConfig)
    ensures c.paging.ByLimit? <==> d.limit.Some? && d.limit.value != 0
    ensures c.paging.ByLimit? ==> c.paging.limit == d.limit.value
    ensures c.paging.ByPage? ==>
      c.paging.pageSize == (if d.pageSize.Some? && d.pageSize.value != 0 then d.pageSize.value else 100)
      && c.paging.page == (if d.page.Some? && d.page.value != 0 then d.page.value else 1)
    ensures c.withRelated.Some? <==> withRelated.Some? && |withRelated.value| > 0
    ensures c.withRelated.Some? ==> c.withRelated == withRelated
  {
    var paging :=
      if d.limit.Some? && d.limit.value != 0 then ByLimit(d.limit.value)
      else ByPage(if d.pageSize.Some? && d.pageSize.value != 0 then d.pageSize.value else 100,
                  if d.page.Some? && d.page.value != 0 then d.page.value else 1);
    var related := if withRelated.Some? && |withRelated.value| > 0 then withRelated else None;
    PageConfig(paging, related)
  }

  /** For any request, `fetchPage` never asks for a limit, page size or page
      of 0, and without a usable `limit` it pages 100 rows from page 1 unless
      told otherwise. */
  lemma FetchPageNeverZero(q: Query, withRelated: Option<seq<string>>)
    ensures var c := FetchPageConfig(Build(q), withRelated);
      match c.paging
      case ByLimit(l) => l != 0 && NumberOption(q, "limit") == Some(l)
      case ByPage(size, page) =>
        size != 0 && page != 0
        && (NumberOption(q, "pageSize").None? ==> size == 100)
        && (NumberOption(q, "page").None? ==> page == 1)
  {
  }
}

=== FILE: shipment.dfy ===
/** The order `createShippoOrderFromShoppingCart` hands to the shipping
    gateway: one line per cart item and the cart's total weight, in
    hundredths of an ounce. The call to the gateway itself is left out. */
module Shipment {
  import opened Wrappers
  import opened ProductModel
  import opened ShippingRates
  import opened CartStore

  datatype OrderLine = OrderLine(quantity: int, sku: ProductId, title: string, weight: int)

  datatype ShippoOrder = ShippoOrder(
    lines: seq<OrderLine>,
    shippingCost: int,
    shippingCurrency: string,
    shippingMethod: string,
    totalPrice: int,
    currency: string,
    weight: int,
    weightUnit: string)

  /** `product.weight_oz * qty` for one line; a product missing from the
      catalog weighs nothing here and makes the order fail below. */
  function ItemWeight(item: LineItem, catalog: map<ProductId, Product>): int {
    (if item.product in catalog then catalog[item.product].weight else 0) * item.qty
  }

  /** The total weight of the lines: the sum of `weight_oz * qty`. */
  function CartWeight(items: seq<LineItem>, catalog: map<ProductId, Product>): int {
    if |items| == 0 then 0
    else CartWeight(items[..|items| - 1], catalog) + ItemWeight(items[|items| - 1], catalog)
  }

  predicate ProductsKnown(items: seq<LineItem>, catalog: map<ProductId, Product>) {
    forall i :: 0 <= i < |items| ==> items[i].product in catalog
  }

  /** The gateway order for `cart`: no cart, no chosen shipping rate and a
      line whose product is gone are errors, as the source's property reads
      throw; otherwise every item becomes one order line, in order. */
  method BuildShippoOrder(cart: Option<Cart>, catalog: map<ProductId, Product>)
    returns (r: Result<ShippoOrder, Error>)
    ensures cart.None? ==> r == Failure(MissingCart)
    ensures cart.Some? && cart.value.shippingRate.None? ==> r == Failure(MissingShippingRate)
    ensures r.Success? <==> cart.Some? && cart.value.shippingRate.Some? && ProductsKnown(cart.value.items, catalog)
    ensures r.Success? ==>
      var items := cart.value.items;
      && |r.value.lines| == |items|
      && (forall i :: 0 <= i < |items| ==>
            && r.value.lines[i].quantity == items[i].qty
            && r.value.lines[i].sku == items[i].product
            && r.value.lines[i].title == catalog[items[i].product].title
            && r.value.lines[i].weight == catalog[items[i].product].weight * items[i].qty)
      && r.value.weight == CartWeight(items, catalog)
      && r.value.shippingCost == cart.value.shippingRate.value.amount
      && r.value.totalPrice == cart.value.grandTotal
  {
    if cart.None? {
      return Failure(MissingCart);
    }
    var c := cart.value;
    if c.shippingRate.None? {
      return Failure(MissingShippingRate);
    }
    var rate := c.shippingRate.value;
    var lines: seq<OrderLine> := [];
    var total := 0;
    var i := 0;
    while i < |c.items|
      invariant 0 <= i <= |c.items|
      invariant |lines| == i
      invariant ProductsKnown(c.items[..i], catalog)
      invariant forall k :: 0 <= k < i ==>
        && lines[k].quantity == c.items[k].qty
        && lines[k].sku == c.items[k].product
        && lines[k].title == catalog[c.items[k].product].title
        && lines[k].weight == catalog[c.items[k].product].weight * c.items[k].qty
      invariant total == CartWeight(c.items[..i], catalog)
    {
      var item := c.items[i];
      if item.product !in catalog {
        return Failure(ProductNotFound);
      }
      var p := catalog[item.product];
      var w := p.weight * item.qty;
      assert c.items[..i + 1][..i] == c.items[..i];
      total := total + w;
      lines := lines + [OrderLine(item.qty, item.product, p.title, w)];
      i := i + 1;
    }
    assert c.items[..i] == c.items;
    r := Success(ShippoOrder(lines, rate.amount, rate.currency, rate.serviceLevel.name,
                             c.grandTotal, "USD", total, "oz"));
  }

  /** Weight adds up over concatenation. */
  lemma {:induction false} CartWeightAppend(a: seq<LineItem>, b: seq<LineItem>, catalog: map<ProductId, Product>)
    ensures CartWeight(a + b, catalog) == CartWeight(a, catalog) + CartWeight(b, catalog)
    decreases |b|
  {
    if |b| > 0 {
      var b' := b[..|b| - 1];
      assert (a + b)[..|a + b| - 1] == a + b';
      CartWeightAppend(a, b', catalog);
    } else {
      assert a + b == a;
    }
  }

  /** Changing one line's quantity changes the weight by that product's
      weight times the difference. */
  lemma {:induction false} CartWeightUpdate(items: seq<LineItem>, i: int, q: int, catalog: map<ProductId, Product>)
    requires 0 <= i < |items|
    ensures CartWeight(items[i := items[i].(qty := q)], catalog)
      == CartWeight(items, catalog) + ItemWeight(items[i].(qty := q), catalog) - ItemWeight(items[i], catalog)
  {
    var u := items[i := items[i].(qty := q)];
    var pre := items[..i];
    assert items == pre + [items[i]] + items[i + 1..];
    assert u == pre + [u[i]] + items[i + 1..];
    CartWeightAppend(pre + [items[i]], items[i + 1..], catalog);
    CartWeightAppend(pre + [u[i]], items[i + 1..], catalog);
    CartWeightAppend(pre, [items[i]], catalog);
    CartWeightAppend(pre, [u[i]], catalog);
  }

  /** Adding `q` of a known product to some lines adds its weight times `q`,
      whether it merges into a line or appends one. */
  lemma AddLineWeight(items: seq<LineItem>, product: ProductId, size: Option<string>, q: int, id: ItemId,
                      catalog: map<ProductId, Product>)
    requires product in catalog
    ensures CartWeight(AddLine(items, product, size, q, id), catalog)
      == CartWeight(items, catalog) + catalog[product].weight * q
  {
    match FindVariant(items, product, size)
    case Some(i) =>
      CartWeightUpdate(items, i, items[i].qty + q, catalog);
    case None =>
      var line := LineItem(id, product, size, q);
      assert (items + [line])[..|items|] == items;
  }

  /** A successful add of a known product makes the target cart heavier by
      exactly the product's weight times the quantity added. */
  lemma AddItemWeight(s: Store, req: CartToken.Request, drawn: Token, newItem: ItemId,
                      catalog: map<ProductId, Product>, productId: ProductId,
                      size: Option<string>, qty: Option<int>)
    requires drawn !in s.carts
    requires qty.Some? ==> qty.value >= 1
    requires productId in catalog
    ensures var t := AddTarget(s, req, drawn);
      var before := WithTarget(s, req, drawn).carts[t].items;
      var after := AddItem(s, req, drawn, newItem, catalog, productId, size, qty).store.carts[t].items;
      CartWeight(after, catalog) == CartWeight(before, catalog) + catalog[productId].weight * QtyOrOne(qty)
  {
    var t := AddTarget(s, req, drawn);
    var before := WithTarget(s, req, drawn).carts[t].items;
    var after := AddItem(s, req, drawn, newItem, catalog, productId, size, qty).store.carts[t].items;
    assert after == AddLine(before, productId, size, QtyOrOne(qty), newItem);
    AddLineWeight(before, productId, size, QtyOrOne(qty), newItem, catalog);
  }
}

=== FILE: shipping_rates.dfy ===
/** Shipping rates as the Shippo quote returns them, and `getLowestShippingRate`:
    the first cheapest quote, or a fixed USPS rate when there is none. The
    quotes themselves come from the shipping gateway and are a parameter.
    Amounts are integer cents. */
module ShippingRates {
  import opened Wrappers

  datatype ServiceLevel = ServiceLevel(name: string, token: string)

  datatype Rate = Rate(
    amount: int,
    currency: string,
    provider: string,
    providerImage75: string,
    providerImage200: string,
    serviceLevel: ServiceLevel,
    estimatedDays: int)

  /** The rate used when the gateway offers none: USPS First-Class at 5.00 USD. */
  const FallbackRate: Rate := Rate(
    500,
    "USD",
    "USPS",
    "https://shippo-static.s3.amazonaws.com/providers/75/USPS.png",
    "https://shippo-static.s3.amazonaws.com/providers/200/USPS.png",
    ServiceLevel("First-Class Package/Mail Parcel", "usps_first"),
    5)

  /** `rates[k]` is the cheapest among `rates[..n]`, and strictly cheaper than
      every rate before it: the first of the cheapest. */
  predicate FirstCheapest(rates: seq<Rate>, n: int, k: int)
    requires n <= |rates|
  {
    && 0 <= k < n
    && (forall j :: 0 <= j < n ==> rates[k].amount <= rates[j].amount)
    && (forall j :: 0 <= j < k ==> rates[k].amount < rates[j].amount)
  }

  /** The `forEach` over the quotes: `best` is the index of the rate held so
      far, replaced only by a strictly cheaper one. */
  function Scan(rates: seq<Rate>, i: nat, best: nat): (k: nat)
    requires 0 < |rates| && i <= |rates|
    requires if i == 0 then best == 0 else FirstCheapest(rates, i, best)
    ensures FirstCheapest(rates, |rates|, k)
    decreases |rates| - i
  {
    if i == |rates| then best
    else Scan(rates, i + 1, if rates[i].amount < rates[best].amount then i else best)
  }

  /** `getLowestShippingRate` for the quote list `rates` (`None` when the
      gateway's `rates` is not an array). */
  function LowestShippingRate(rates: Option<seq<Rate>>): (r: Rate)
    ensures rates.None? || |rates.value| == 0 ==> r == FallbackRate
    ensures rates.Some? && |rates.value| > 0 ==>
      exists k :: FirstCheapest(rates.value, |rates.value|, k) && r == rates.value[k]
  {
    if rates.Some? && |rates.value| > 0 then
      var k := Scan(rates.value, 0, 0);
      rates.value[k]
    else FallbackRate
  }

  /** The first cheapest rate is unique, so the contract above fixes the
      chosen rate completely. */
  lemma FirstCheapestUnique(rates: seq<Rate>, k1: int, k2: int)
    requires FirstCheapest(rates, |rates|, k1) && FirstCheapest(rates, |rates|, k2)
    ensures k1 == k2
  {
    assert rates[k1].amount <= rates[k2].amount;
    assert rates[k2].amount <= rates[k1].amount;
  }

  /** The chosen rate is never more expensive than any quote. */
  lemma LowestIsCheapest(rates: seq<Rate>, j: int)
    requires 0 <= j < |rates|
    ensures LowestShippingRate(Some(rates)).amount <= rates[j].amount
  {
  }

  /** Quotes of 12.50, 8.00 and 9.99 select the 8.00 one; with a tie the
      earlier quote wins. */
  lemma LowestExample(a: Rate, b: Rate, c: Rate)
    requires a.amount == 1250 && b.amount == 800 && c.amount == 999
    ensures LowestShippingRate(Some([a, b, c])) == b
    ensures LowestShippingRate(Some([a, b, c.(amount := 800)])) == b
  {
    var rs := [a, b, c];
    var k := Scan(rs, 0, 0);
    FirstCheapestUnique(rs, k, 1);
    var ts := [a, b, c.(amount := 800)];
    var m := Scan(ts, 0, 0);
    FirstCheapestUnique(ts, m, 1);
  }
}

=== FILE: text.dfy ===
/** The string vocabulary the helpers rely on: JavaScript's `split`, `join`,
    `trim` and `parseInt(_, 10)` on strings modelled as `seq<char>`, together
    with their round-trip laws. */
module Text {
  import opened Wrappers

  /** Number of occurrences of `c` in `s`. */
  function Count(s: string, c: char): nat {
    if |s| == 0 then 0 else (if s[0] == c then 1 else 0) + Count(s[1..], c)
  }

  /** `a` can be obtained from `b` by deleting characters. */
  predicate IsSubsequence(a: string, b: string)
    decreases |b|
  {
    if |a| == 0 then true
    else if |b| == 0 then false
    else if a[0] == b[0] then IsSubsequence(a[1..], b[1..])
    else IsSubsequence(a, b[1..])
  }

  lemma {:induction false} SubsequenceRefl(s: string)
    ensures IsSubsequence(s, s)
    decreases |s|
  {
    if |s| > 0 {
      SubsequenceRefl(s[1..]);
    }
  }

  /** A subsequence keeps every character it has from the original. */
  lemma {:induction false} SubsequenceChars(a: string, b: string, c: char)
    requires IsSubsequence(a, b)
    requires c !in b
    ensures c !in a
    decreases |b|
  {
    if |a| > 0 {
      assert |b| > 0;
      if a[0] == b[0] {
        SubsequenceChars(a[1..], b[1..], c);
        assert a == [a[0]] + a[1..];
      } else {
        SubsequenceChars(a, b[1..], c);
      }
    }
  }

  lemma {:induction false} SubsequenceLength(a: string, b: string)
    requires IsSubsequence(a, b)
    ensures |a| <= |b|
    decreases |b|
  {
    if |a| > 0 {
      if a[0] == b[0] {
        SubsequenceLength(a[1..], b[1..]);
      } else {
        SubsequenceLength(a, b[1..]);
      }
    }
  }

  /** Index of the first `c` in `s`. */
  function IndexOf(s: string, c: char): (i: nat)
    requires c in s
    ensures i < |s| && s[i] == c && c !in s[..i]
  {
    if s[0] == c then 0
    else
      assert c in s[1..] by { var j :| 0 <= j < |s| && s[j] == c; assert s[1..][j - 1] == c; }
      var j := IndexOf(s[1..], c);
      assert s[..j + 1] == [s[0]] + s[1..][..j];
      j + 1
  }

  /** JavaScript's `s.split(sep)` for a one-character separator: the maximal
      separator-free pieces, empty ones included. */
  function Split(s: string, sep: char): (parts: seq<string>)
    ensures |parts| >= 1
    ensures forall i :: 0 <= i < |parts| ==> sep !in parts[i]
    decreases |s|
  {
    if sep !in s then [s]
    else
      var i := IndexOf(s, sep);
      [s[..i]] + Split(s[i + 1..], sep)
  }

  /** JavaScript's `parts.join(sep)`. */
  function Join(parts: seq<string>, sep: char): string {
    if |parts| == 0 then ""
    else if |parts| == 1 then parts[0]
    else Join(parts[..|parts| - 1], sep) + [sep] + parts[|parts| - 1]
  }

  lemma JoinSnocLength(parts: seq<string>, w: string, sep: char)
    ensures |Join(parts + [w], sep)| == |Join(parts, sep)| + (if |parts| > 0 then 1 else 0) + |w|
  {
    assert (parts + [w])[..|parts|] == parts;
  }

  lemma {:induction false} JoinAppend(a: seq<string>, b: seq<string>, sep: char)
    requires |a| > 0 && |b| > 0
    ensures Join(a + b, sep) == Join(a, sep) + [sep] + Join(b, sep)
    decreases |b|
  {
    var ab := a + b;
    assert ab[..|ab| - 1] == a + b[..|b| - 1];
    if |b| == 1 {
      assert a + b[..0] == a;
    } else {
      JoinAppend(a, b[..|b| - 1], sep);
    }
  }

  lemma JoinCons(w: string, rest: seq<string>, sep: char)
    requires |rest| > 0
    ensures Join([w] + rest, sep) == w + [sep] + Join(rest, sep)
  {
    JoinAppend([w], rest, sep);
  }

  /** Splitting and joining on the same separator gives the string back. */
  lemma {:induction false} SplitThenJoin(s: string, sep: char)
    ensures Join(Split(s, sep), sep) == s
    decreases |s|
  {
    if sep in s {
      var i := IndexOf(s, sep);
      SplitThenJoin(s[i + 1..], sep);
      JoinCons(s[..i], Split(s[i + 1..], sep), sep);
      assert s == s[..i] + [sep] + s[i + 1..];
    }
  }

  /** Joining separator-free pieces and splitting again gives the pieces back. */
  lemma {:induction false} JoinThenSplit(parts: seq<string>, sep: char)
    requires |parts| >= 1
    requires forall i :: 0 <= i < |parts| ==> sep !in parts[i]
    ensures Split(Join(parts, sep), sep) == parts
    decreases |parts|
  {
    if |parts| > 1 {
      var rest := parts[1..];
      assert parts == [parts[0]] + rest;
      JoinCons(parts[0], rest, sep);
      var s := Join(parts, sep);
      assert s == parts[0] + [sep] + Join(rest, sep);
      assert s[|parts[0]|] == sep;
      assert s[..|parts[0]|] == parts[0];
      var i := IndexOf(s, sep);
      assert i == |parts[0]|;
      assert s[i + 1..] == Join(rest, sep);
      JoinThenSplit(rest, sep);
    }
  }

  /** A split yields one more piece than there are separators. */
  lemma {:induction false} SplitCount(s: string, sep: char)
    ensures |Split(s, sep)| == Count(s, sep) + 1
    decreases |s|
  {
    if sep !in s {
      CountAbsent(s, sep);
    } else {
      var i := IndexOf(s, sep);
      SplitCount(s[i + 1..], sep);
      CountAppend(s[..i], [sep] + s[i + 1..], sep);
      CountAppend([sep], s[i + 1..], sep);
      CountAbsent(s[..i], sep);
      assert s == s[..i] + ([sep] + s[i + 1..]);
    }
  }

  lemma {:induction false} CountAbsent(s: string, c: char)
    requires c !in s
    ensures Count(s, c) == 0
    decreases |s|
  {
    if |s| > 0 {
      assert c !in s[1..];
      CountAbsent(s[1..], c);
    }
  }

  lemma {:induction false} CountAppend(a: string, b: string, c: char)
    ensures Count(a + b, c) == Count(a, c) + Count(b, c)
    decreases |a|
  {
    if |a| > 0 {
      assert (a + b)[1..] == a[1..] + b;
      CountAppend(a[1..], b, c);
    } else {
      assert a + b == b;
    }
  }

  /** A leading run of pieces joins to a prefix of the whole join, and
      unless it is all of them, a separator follows it. */
  lemma JoinPrefix(parts: seq<string>, k: nat, sep: char)
    requires 0 < k < |parts|
    ensures Join(parts, sep) == Join(parts[..k], sep) + [sep] + Join(parts[k..], sep)
  {
    JoinAppend(parts[..k], parts[k..], sep);
    assert parts[..k] + parts[k..] == parts;
  }

  // ---------------------------------------------------------------- trim

  /** The characters `String.prototype.trim` removes: the ASCII blanks, the
      no-break space, the byte-order mark and the two Unicode line separators. */
  predicate IsWhitespace(c: char) {
    c == ' ' || c == '\t' || c == '\n' || c == '\r' || c == '\U{000B}' || c == '\U{000C}'
    || c == '\U{00A0}' || c == '\U{FEFF}' || c == '\U{2028}' || c == '\U{2029}'
  }

  function TrimStart(s: string): (r: string)
    ensures |r| <= |s| && r == s[|s| - |r|..]
    ensures |r| > 0 ==> !IsWhitespace(r[0])
    ensures forall i :: 0 <= i < |s| - |r| ==> IsWhitespace(s[i])
  {
    if |s| > 0 && IsWhitespace(s[0]) then TrimStart(s[1..]) else s
  }

  function TrimEnd(s: string): (r: string)
    ensures |r| <= |s| && r == s[..|r|]
    ensures |r| > 0 ==> !IsWhitespace(r[|r| - 1])
    ensures forall i :: |r| <= i < |s| ==> IsWhitespace(s[i])
  {
    if |s| > 0 && IsWhitespace(s[|s| - 1]) then TrimEnd(s[..|s| - 1]) else s
  }

  /** JavaScript's `s.trim()`: the input without its leading and trailing
      whitespace, every inner character kept. */
  function Trim(s: string): (r: string)
    ensures |r| <= |s|
    ensures |r| > 0 ==> !IsWhitespace(r[0]) && !IsWhitespace(r[|r| - 1])
    ensures LeadingWhitespace(s) + |r| <= |s|
    ensures r == s[LeadingWhitespace(s)..LeadingWhitespace(s) + |r|]
    ensures forall i :: LeadingWhitespace(s) + |r| <= i < |s| ==> IsWhitespace(s[i])
  {
    var t := TrimStart(s);
    var r := TrimEnd(t);
    assert r == s[|s| - |t|..|s| - |t| + |r|];
    r
  }

  /** Trimming a trimmed string changes nothing. */
  lemma TrimIdempotent(s: string)
    ensures Trim(Trim(s)) == Trim(s)
  {
    var r := Trim(s);
    if |r| > 0 {
      TrimStartKeeps(r);
      assert TrimEnd(r) == r;
    }
  }

  /** How many whitespace characters `trim` drops from the front. */
  function LeadingWhitespace(s: string): nat {
    |s| - |TrimStart(s)|
  }

  // ---------------------------------------------------------------- integers

  predicate IsDigit(c: char) { '0' <= c <= '9' }

  predicate AllDigits(s: string) { forall i :: 0 <= i < |s| ==> IsDigit(s[i]) }

  /** The longest all-digit prefix of `s`. */
  function DigitPrefix(s: string): (d: string)
    ensures d <= s && AllDigits(d)
    ensures |d| < |s| ==> !IsDigit(s[|d|])
  {
    if |s| > 0 && IsDigit(s[0]) then
      var rest := DigitPrefix(s[1..]);
      assert [s[0]] + rest <= s;
      [s[0]] + rest
    else ""
  }

  lemma {:induction false} DigitPrefixOfDigits(s: string)
    requires AllDigits(s)
    ensures DigitPrefix(s) == s
    decreases |s|
  {
    if |s| > 0 {
      DigitPrefixOfDigits(s[1..]);
    }
  }

  /** The decimal value of a string of digits, most significant first. */
  function DigitsValue(d: string): nat
    requires AllDigits(d)
  {
    if |d| == 0 then 0 else 10 * DigitsValue(d[..|d| - 1]) + (d[|d| - 1] - '0') as nat
  }

  function DigitChar(n: nat): char
    requires n < 10
  {
    ('0' as int + n) as char
  }

  /** The decimal rendering JavaScript gives a non-negative integer. */
  function NatToString(n: nat): (s: string)
    ensures |s| > 0 && AllDigits(s)
  {
    if n < 10 then [DigitChar(n)] else NatToString(n / 10) + [DigitChar(n % 10)]
  }

  /** The decimal rendering JavaScript gives an integer (template literals, `String(n)`). */
  function IntToString(n: int): (s: string)
    ensures |s| > 0
  {
    if n < 0 then "-" + NatToString(-n) else NatToString(n)
  }

  lemma {:induction false} NatToStringValue(n: nat)
    ensures DigitsValue(NatToString(n)) == n
  {
    if n >= 10 {
      var s := NatToString(n);
      assert s[..|s| - 1] == NatToString(n / 10);
      NatToStringValue(n / 10);
    }
  }

  /** JavaScript's `parseInt(s, 10)`: skip leading whitespace, then read a
      signed run of digits; `None` is `NaN`. */
  function ParseInt(s: string): Option<int> {
    ParseSigned(TrimStart(s))
  }

  /** An optional sign and the longest run of digits after it. */
  function ParseSigned(t: string): (r: Option<int>)
    ensures r.None? <==>
      var body := if |t| > 0 && (t[0] == '-' || t[0] == '+') then t[1..] else t;
      |body| == 0 || !IsDigit(body[0])
  {
    var negative := |t| > 0 && t[0] == '-';
    var body := if |t| > 0 && (t[0] == '-' || t[0] == '+') then t[1..] else t;
    var digits := DigitPrefix(body);
    if |digits| == 0 then None
    else if negative then Some(-(DigitsValue(digits) as int))
    else Some(DigitsValue(digits))
  }

  /** Leading whitespace in front of a non-blank string is exactly what
      `TrimStart` drops. */
  lemma {:induction false} TrimStartDrops(ws: string, t: string)
    requires forall i :: 0 <= i < |ws| ==> IsWhitespace(ws[i])
    requires |t| > 0 && !IsWhitespace(t[0])
    ensures TrimStart(ws + t) == t
    decreases |ws|
  {
    if |ws| == 0 {
      assert ws + t == t;
    } else {
      assert (ws + t)[1..] == ws[1..] + t;
      TrimStartDrops(ws[1..], t);
    }
  }

  /** The digit run ends where the first non-digit begins. */
  lemma {:induction false} DigitPrefixOfRun(d: string, rest: string)
    requires AllDigits(d)
    requires |rest| == 0 || !IsDigit(rest[0])
    ensures DigitPrefix(d + rest) == d
    decreases |d|
  {
    if |d| == 0 {
      assert d + rest == rest;
    } else {
      assert (d + rest)[1..] == d[1..] + rest;
      DigitPrefixOfRun(d[1..], rest);
    }
  }

  /** A sign as `parseInt` accepts it: nothing, `-` or `+`. */
  predicate IsSign(sign: string) {
    |sign| <= 1 && (|sign| == 1 ==> sign[0] == '-' || sign[0] == '+')
  }

  predicate IsMinus(sign: string) {
    |sign| == 1 && sign[0] == '-'
  }

  /** After the optional sign, the value is that of the digit run, and
      whatever follows the run is ignored. */
  lemma ParseSignedLeading(sign: string, d: string, rest: string)
    requires IsSign(sign)
    requires |d| > 0 && AllDigits(d)
    requires |rest| == 0 || !IsDigit(rest[0])
    ensures ParseSigned(sign + (d + rest))
         == Some(if IsMinus(sign) then -(DigitsValue(d) as int) else DigitsValue(d) as int)
  {
    DigitPrefixOfRun(d, rest);
    ParseSignedRun(sign, d + rest, d);
  }

  lemma ParseSignedRun(sign: string, run: string, d: string)
    requires IsSign(sign)
    requires |d| > 0 && DigitPrefix(run) == d
    ensures ParseSigned(sign + run)
         == Some(if IsMinus(sign) then -(DigitsValue(d) as int) else DigitsValue(d) as int)
  {
    UnsignedRun(sign, run, d);
    SignedRun(sign, run, d);
  }

  lemma UnsignedRun(sign: string, run: string, d: string)
    requires |d| > 0 && DigitPrefix(run) == d
    ensures |sign| == 0 ==> ParseSigned(sign + run) == Some(DigitsValue(d) as int)
  {
    if |sign| == 0 {
      assert sign + run == run;
      assert run[0] == d[0];
    }
  }

  lemma SignedRun(sign: string, run: string, d: string)
    requires IsSign(sign)
    requires |d| > 0 && DigitPrefix(run) == d
    ensures |sign| == 1 ==>
      ParseSigned(sign + run) == Some(if IsMinus(sign) then -(DigitsValue(d) as int) else DigitsValue(d) as int)
  {
    if |sign| == 1 {
      var x := sign + run;
      assert x[0] == sign[0] && (x[0] == '-' || x[0] == '+');
      assert x[1..] == run;
      assert IsMinus(sign) <==> x[0] == '-';
    }
  }

  /** A signed run never starts with whitespace. */
  lemma SignedRunStart(sign: string, d: string, rest: string)
    requires IsSign(sign)
    requires |d| > 0 && AllDigits(d)
    ensures var t := sign + (d + rest); |t| > 0 && !IsWhitespace(t[0])
  {
    assert IsDigit(d[0]);
    if |sign| == 0 {
      assert (sign + (d + rest))[0] == d[0];
    } else {
      assert (sign + (d + rest))[0] == sign[0];
    }
  }

  /** `parseInt(s, 10)` reads the signed run of digits after any leading
      whitespace and ignores whatever follows it: `" +7px"` is 7, `"007"` is
      7 and `"-12.5"` is -12. */
  lemma ParseIntLeading(ws: string, sign: string, d: string, rest: string)
    requires forall i :: 0 <= i < |ws| ==> IsWhitespace(ws[i])
    requires IsSign(sign)
    requires |d| > 0 && AllDigits(d)
    requires |rest| == 0 || !IsDigit(rest[0])
    ensures ParseInt(ws + (sign + (d + rest)))
         == Some(if IsMinus(sign) then -(DigitsValue(d) as int) else DigitsValue(d) as int)
  {
    SignedRunStart(sign, d, rest);
    TrimStartDrops(ws, sign + (d + rest));
    ParseSignedLeading(sign, d, rest);
  }

  lemma TrimStartKeeps(s: string)
    requires |s| > 0 && !IsWhitespace(s[0])
    ensures TrimStart(s) == s
  {
  }

  lemma ParseDigits(d: string)
    requires |d| > 0 && AllDigits(d)
    ensures ParseInt(d) == Some(DigitsValue(d) as int)
  {
    assert IsDigit(d[0]);
    TrimStartKeeps(d);
    assert ParseInt(d) == ParseSigned(d);
    UnsignedDigits(d);
  }

  lemma UnsignedDigits(d: string)
    requires |d| > 0 && AllDigits(d)
    ensures ParseSigned(d) == Some(DigitsValue(d) as int)
  {
    assert IsDigit(d[0]);
    assert !(d[0] == '-' || d[0] == '+');
    DigitPrefixOfDigits(d);
  }

  lemma ParseNegativeDigits(d: string)
    requires |d| > 0 && AllDigits(d)
    ensures ParseInt("-" + d) == Some(-(DigitsValue(d) as int))
  {
    var s := "-" + d;
    TrimStartKeeps(s);
    assert ParseInt(s) == ParseSigned(s);
    NegativeDigits(s, d);
  }

  lemma NegativeDigits(s: string, d: string)
    requires |d| > 0 && AllDigits(d)
    requires s == "-" + d
    ensures ParseSigned(s) == Some(-(DigitsValue(d) as int))
  {
    assert s[1..] == d;
    DigitPrefixOfDigits(d);
  }

  /** Rendering an integer in decimal and parsing it back is the identity. */
  lemma IntToStringParses(n: int)
    ensures ParseInt(IntToString(n)) == Some(n)
  {
    if n < 0 {
      var m: nat := -n;
      assert IntToString(n) == "-" + NatToString(m);
      NegativeParses(m);
    } else {
      assert IntToString(n) == NatToString(n);
      NaturalParses(n);
    }
  }

  lemma NaturalParses(m: nat)
    ensures ParseInt(NatToString(m)) == Some(m)
  {
    NatToStringValue(m);
    ParseDigits(NatToString(m));
  }

  lemma NegativeParses(m: nat)
    requires m > 0
    ensures ParseInt("-" + NatToString(m)) == Some(-(m as int))
  {
    var d := NatToString(m);
    NatToStringValue(m);
    ParseNegativeDigits(d);
    assert ParseInt("-" + d) == Some(-(DigitsValue(d) as int));
  }
}

=== FILE: ui_store.dfy ===
/** The `ui` store module of the web client: a record of flags and a locale,
    changed only through its mutations. The window width read by
    `WINDOW_RESIZE` and the build environment are parameters. */
module UiStore {

  const DomainName: string := "goBreadVan.com"

  /** Widths above this many pixels count as a desktop window. */
  const DesktopMinWidth: int := 1024

  datatype UiState = UiState(
    sidebarOpened: bool,
    isMobile: bool,
    locales: seq<string>,
    locale: string,
    inCheckoutFlow: bool,
    infoEmailAddress: string,
    brandName: string,
    siteName: string,
    siteUrlLong: string,
    siteUrlShort: string,
    twitterUser: string)

  /** The store's invariant: the current locale is one of the offered ones. */
  predicate Valid(st: UiState) {
    st.locale in st.locales
  }

  /** The `state` initialiser. `development` is `NODE_ENV === 'development'`
      and `apiPort` is `API_PORT`, both read from the environment. */
  function InitialState(development: bool, apiPort: string): (st: UiState)
    ensures Valid(st)
    ensures st.sidebarOpened && !st.isMobile && !st.inCheckoutFlow
    ensures st.locale == "en" && st.locales == ["en", "fr"]
  {
    UiState(
      sidebarOpened := true,
      isMobile := false,
      locales := ["en", "fr"],
      locale := "en",
      inCheckoutFlow := false,
      infoEmailAddress := "info@" + DomainName,
      brandName := "BreadVan",
      siteName := DomainName,
      siteUrlLong := if development then "http://localhost:" + apiPort else "https://www." + DomainName,
      siteUrlShort := if development then "localhost:" + apiPort else "www." + DomainName,
      twitterUser := "gmnstLife")
  }

  datatype Mutation =
    | CloseSidebar
    | OpenSidebar
    | ToggleSidebar
    | LocationChange
    | WindowResize(innerWidth: int)
    | SetLang(requested: string)
    | SetInCheckoutFlow(flag: bool)

  /** Two states agree on everything except the sidebar and mobile flags,
      the checkout flag and the locale, which each mutation frames separately. */
  predicate SameConfiguration(a: UiState, b: UiState) {
    && a.locales == b.locales
    && a.infoEmailAddress == b.infoEmailAddress
    && a.brandName == b.brandName
    && a.siteName == b.siteName
    && a.siteUrlLong == b.siteUrlLong
    && a.siteUrlShort == b.siteUrlShort
    && a.twitterUser == b.twitterUser
  }

  /** Committing one mutation. */
  function Apply(st: UiState, m: Mutation): (st': UiState)
    ensures SameConfiguration(st, st')
    ensures m.CloseSidebar? || m.LocationChange? ==> !st'.sidebarOpened
    ensures m.OpenSidebar? ==> st'.sidebarOpened
    ensures m.ToggleSidebar? ==> st'.sidebarOpened == !st.sidebarOpened
    ensures m.WindowResize? ==>
      st'.sidebarOpened == (m.innerWidth > DesktopMinWidth) && st'.isMobile == !(m.innerWidth > DesktopMinWidth)
    ensures !m.WindowResize? ==> st'.isMobile == st.isMobile
    ensures m.SetLang? || m.SetInCheckoutFlow? ==> st'.sidebarOpened == st.sidebarOpened
    ensures m.SetLang? ==> st'.locale == (if m.requested in st.locales then m.requested else st.locale)
    ensures !m.SetLang? ==> st'.locale == st.locale
    ensures m.SetInCheckoutFlow? ==> st'.inCheckoutFlow == m.flag
    ensures !m.SetInCheckoutFlow? ==> st'.inCheckoutFlow == st.inCheckoutFlow
  {
    match m
    case CloseSidebar => st.(sidebarOpened := false)
    case OpenSidebar => st.(sidebarOpened := true)
    case ToggleSidebar => st.(sidebarOpened := !st.sidebarOpened)
    case LocationChange => st.(sidebarOpened := false)
    case WindowResize(w) =>
      var isDesktop := w > DesktopMinWidth;
      st.(isMobile := !isDesktop, sidebarOpened := isDesktop)
    case SetLang(locale) =>
      if locale in st.locales then st.(locale := locale) else st
    case SetInCheckoutFlow(flag) => st.(inCheckoutFlow := flag)
  }

  /** Committing a sequence of mutations, first to last. */
  function Run(st: UiState, ms: seq<Mutation>): UiState
    decreases |ms|
  {
    if |ms| == 0 then st else Run(Apply(st, ms[0]), ms[1..])
  }

  /** The `inCheckoutFlow` getter. */
  function InCheckoutFlow(st: UiState): bool {
    st.inCheckoutFlow
  }

  /** Every mutation keeps the locale among the offered locales. */
  lemma ApplyPreservesValid(st: UiState, m: Mutation)
    requires Valid(st)
    ensures Valid(Apply(st, m))
  {
  }

  /** From the initial state, no sequence of mutations can select a locale
      outside `['en', 'fr']`. */
  lemma {:induction false} RunPreservesValid(st: UiState, ms: seq<Mutation>)
    requires Valid(st)
    ensures Valid(Run(st, ms))
    ensures Run(st, ms).locales == st.locales
    decreases |ms|
  {
    if |ms| > 0 {
      ApplyPreservesValid(st, ms[0]);
      RunPreservesValid(Apply(st, ms[0]), ms[1..]);
    }
  }

  lemma ReachableLocales(development: bool, apiPort: string, ms: seq<Mutation>)
    ensures Run(InitialState(development, apiPort), ms).locale in ["en", "fr"]
  {
    RunPreservesValid(InitialState(development, apiPort), ms);
  }

  /** Toggling the sidebar twice restores the state exactly. */
  lemma ToggleTwice(st: UiState)
    ensures Apply(Apply(st, ToggleSidebar), ToggleSidebar) == st
  {
  }

  /** After a resize the window is either mobile or shows the sidebar, never
      both and never neither. */
  lemma ResizeSeparatesMobileAndSidebar(st: UiState, w: int)
    ensures Apply(st, WindowResize(w)).isMobile != Apply(st, WindowResize(w)).sidebarOpened
  {
  }

  /** The getter returns the flag last stored: no later mutation of another
      kind changes it. */
  lemma {:induction false} GetterReadsStoredFlag(st: UiState, flag: bool, ms: seq<Mutation>)
    requires forall i :: 0 <= i < |ms| ==> !ms[i].SetInCheckoutFlow?
    ensures InCheckoutFlow(Run(st, [SetInCheckoutFlow(flag)] + ms)) == flag
  {
    var st1 := Apply(st, SetInCheckoutFlow(flag));
    assert ([SetInCheckoutFlow(flag)] + ms)[1..] == ms;
    FlagSurvives(st1, ms);
  }

  lemma {:induction false} FlagSurvives(st: UiState, ms: seq<Mutation>)
    requires forall i :: 0 <= i < |ms| ==> !ms[i].SetInCheckoutFlow?
    ensures Run(st, ms).inCheckoutFlow == st.inCheckoutFlow
    decreases |ms|
  {
    if |ms| > 0 {
      FlagSurvives(Apply(st, ms[0]), ms[1..]);
    }
  }
}

=== FILE: wrappers.dfy ===
/** Failure-carrying datatypes shared by the storefront model.
    `Option` stands for a JavaScript value that may be `null`/`undefined`;
    `Result` stands for a call that either returns or throws. */
module Wrappers {

  datatype Option<+T> = None | Some(value: T) {

    /** The value, or `default` when there is none (JavaScript's `x || default`
        when `x` can only be absent or a truthy value). */
    function GetOr(default: T): T {
      match this
      case Some(v) => v
      case None => default
    }
  }

  datatype Result<+T, +E> = Success(value: T) | Failure(error: E)
}
